=== FILE: README.md ===
# Playback control core of a church media server, in Dafny

A media server for church services lets several clients control one audio
player over sockets. Clients can play or pause, mute, change the volume and
switch between two songs, "slow" and "fast". One network-wide gate admits
one mutation at a time. An admin override freezes the view that readers see
while privileged work runs.

This project models that core and proves properties of the model:

- the `Player` and the state it records
- the `DeviceHandler` that drives the audio engine: fades, file loads, and the position-restore loop
- the admin override (`AdminExclusiveLockManager`) and the `LockCoordinator`
- the socket handlers for state, song, mute and volume
- the logger: its bounded buffer, its console line, and the context records it is given

Modules, one file each:

| file | module | models |
|---|---|---|
| `media_config.dfy` | `MediaConfig` | wire constants, `PlayerConfig`, `INITIAL_PLAYER_CONFIG`, `DEFAULT_SONG_VOLUMES` |
| `device.dfy` | `Device` | `DeviceHandler` as traces of engine commands, with an injected fault index |
| `playback.dfy` | `Playback` | `Player` as pure transitions returning (player, command trace, ok) |
| `locks.dfy` | `Locks` | the gate's documented result plus assumed release and error behaviour, the admin override, the coordinator |
| `handlers.dfy` | `Handlers` | the four handler files as step functions returning (player, emits, trace, outcome) |
| `session.dfy` | `Session` | the server as an event system in which a handler body suspends between `Arrive` and `Finish` |
| `logging.dfy` | `Logging` | `Logger.log`, the level methods, `createContext` and the facade |

Modelling conventions:

- **Faults.** A device operation takes `fault: Option<nat>`, the index among that operation's own engine calls of the call that throws. The throwing call appears in the trace; nothing after it does.
- **Reads.** What the engine answers to a read is an input. A playback-time read is `Option<real>`; `None` means the read threw or did not parse.
- **Payloads.** Client payloads are unchecked in the source. The model keeps them as plain `int` and `string`, so integers other than 0/1 and song names other than "slow"/"fast" are covered. Fractional numbers and NaN are not representable, but the core only stores them, forwards them and compares them with `===`, so they would behave like any other value that is not 0 or 1. Names of properties every JavaScript object inherits ("constructor", "__proto__", "toString", ...) are the exception; see "## Left out".
- **Suspension.** A handler body that suspends (a fade takes three seconds) is an `Arrive` event followed later by a `Finish` event. Other requests and admin events can come in between.
- **The attempt cap.** `DEVICE_CONFIG` defines no `MAX_PROPERTY_SET_ATTEMPTS`, so the cap is a parameter `cap: Option<nat>`. `None` is the shipped, undefined value: every comparison with it is false, so the loop makes one attempt and never throws.
- **The gate's return value.** The gate (`NetworkLockManager`) is not part of this model; only its boolean result is documented (true when the operation ran, false when the lock could not be acquired, at `server/lock/LockCoordinator.js:29-32`). The model assumes the rest: the refusal is immediate, the gate is released on every exit path, and an error of the body propagates. `withAdminOperation` reads `acquired` from the gate, and that value can be read two ways:
  - `AcquisitionResult`: the gate reports whether it ran the body.
  - `CallbackValue`: the gate passes the body's own return value through. That value is `false` or `undefined`, both falsy.

  Both readings are modelled.

Behaviours of the code worth knowing, each modelled as written:

- **setVolume while muted.** The new volume is sent to the engine at once, so a muted player becomes audible; unmuting sends it again (`Playback.MuteSetVolumeUnmute`).
- **Commit order.** `setVolume` and `setMute` store their field before calling the device, so a device error does not undo the store. `changeSong` records the new song before restoring its position.
- **Reads during an override.** The get-volume handler reads the live player, not the read view (`Handlers.GettersDuringOverride`).
- **The restore loop.** It throws whenever the attempt count reaches the cap, even when the last read matched. With the cap undefined it writes the position once and never throws.
- **Override cleanup.** The override's reset is itself gated. When the gate is held at that moment, the reset is silently skipped (`Session.OverrideOutlivesItsOperation`).
- **The volume handler's lock.** The handler is given the `LockCoordinator`, which has no `withLock`. Every change-volume request therefore throws, and the handler catches and logs the error (`Handlers.ChangeVolumeAsWiredFails`).

## Model

| member | source | states |
|---|---|---|
| MediaConfig.DefaultSongVolume | server/constants/playerConfig.js:4-7 | only "slow" and "fast" have a default volume, and it lies in 0..100; any other name is undefined |
| MediaConfig.InitialConfigMatchesSlowDefault | server/constants/playerConfig.js:4-15 | the initial volume is the slow song's default, the player starts paused and unmuted |
| Device.Initialize | server/hardware/DeviceHandler.js:16-45 | construction never fails; both songs start at position 0; the first file is loaded and the engine ends paused |
| Device.FadeVolumeWrites | server/hardware/DeviceHandler.js:78-83 | a fade of n steps is exactly n volume writes |
| Device.Pause | server/hardware/DeviceHandler.js:76-86 | a volume read, 31 fade-out writes in step order, then pause, then the volume restore; pause is reached iff no earlier call throws |
| Device.Resume | server/hardware/DeviceHandler.js:92-102 | volume read, volume 0, unpause, then 31 fade-in writes in step order; never pauses |
| Device.SetVolume | server/hardware/DeviceHandler.js:108-110 | an undefined volume throws before any engine call; otherwise exactly one option write of that volume |
| Device.SongIndex | server/hardware/DeviceHandler.js:123 | "slow" selects the first playlist entry and every other name the second |
| Device.SavedTime | server/hardware/DeviceHandler.js:62-70 | a read that throws or does not parse is saved as 0 |
| Device.ChangeSong | server/hardware/DeviceHandler.js:117-137 | the time is saved under the given current song only, other saved times are kept, the new file is loaded; the table is written even when the load throws |
| Device.Attempts | server/hardware/DeviceHandler.js:148-159 | the loop writes the position at least once and at most the cap, and writes nothing but the target |
| Device.LoadLastSongTime | server/hardware/DeviceHandler.js:143-169 | an unknown song throws with no engine call; the table never changes; writes bounded by the cap and only of the saved time |
| Device.RestorePosition | server/hardware/DeviceHandler.js:143-169 | the do/while loop as written computes exactly LoadLastSongTime |
| Device.AttemptsOkIff | server/hardware/DeviceHandler.js:148-159 | from attempt k on, the loop returns normally iff some later read matches before the count reaches the cap |
| Device.AttemptsExhausted | server/hardware/DeviceHandler.js:152-159 | with no early match the loop makes every remaining attempt and throws |
| Device.RestoreOkIffEarlyMatch | server/hardware/DeviceHandler.js:143-159 | restoring succeeds iff some read before the cap-th matches the saved time |
| Device.RestoreThrowsWhenLastReadMatches | server/hardware/DeviceHandler.js:152-159 | a match on the cap-th read still throws, after exactly cap writes |
| Device.RestoreWithoutCapWritesOnce | server/hardware/DeviceHandler.js:152-157 | with the cap undefined the position is written once and the loop never throws |
| Playback.NewPlayer | server/player/Player.js:17-22 | a new player is {50, unmuted, paused, slow}, both songs at 0, and its last engine call sets volume 50 |
| Playback.VolumeAndStateGetters | server/player/Player.js:29-77 | getVolume reads the last volume set, and setMute, play and pause leave it unchanged; getState reads Playing or Paused after a play or pause that returned and the old state after one that threw |
| Playback.IsMutedReadsLastMute | server/player/Player.js:178-180 | isMuted holds exactly when the last mute value stored was MUTED; volume changes and play keep it |
| Playback.PlayingXorPaused | server/player/Player.js:162-172 | isPlaying and isPaused are never both true nor both false |
| Playback.SetVolume | server/player/Player.js:37-40 | the value is stored whatever it is and whether or not the device throws; the other fields are kept; one volume write |
| Playback.SetMute | server/player/Player.js:92-99 | the mute value is stored; the device gets 0 for MUTED and the stored volume otherwise; the stored volume is kept |
| Playback.MuteSetVolumeUnmute | server/player/Player.js:37-99 | a volume change while muted reaches the device at once, and unmuting sends that new volume |
| Playback.MuteUnmuteRestoresVolume | server/player/Player.js:92-99 | mute then unmute returns the configuration to what it was, unmuted, and sends the pre-mute volume |
| Playback.Play | server/player/Player.js:55-63 | Playing is recorded iff the fade-in returned normally; on a throw the player is unchanged |
| Playback.Pause | server/player/Player.js:69-77 | Paused is recorded iff the fade-out returned normally; on a throw the player is unchanged |
| Playback.PauseFailingAtRestoreLeavesStateStale | server/player/Player.js:69-77 | when only the final volume restore throws, the engine is paused but the player keeps its old state |
| Playback.FadeOutIfPlaying | server/player/Player.js:117-126 | the fade-out runs only when playing, returns normally exactly when the fade-out does, and never writes the position |
| Playback.LoadNewSong | server/player/Player.js:128-142 | saving the position, loading the file and setting the default volume return normally exactly when the switch commits; the table gets the saved time; no position write and no pause |
| Playback.SwitchTrack | server/player/Player.js:128-153 | after the fade-out: the switch is recorded iff the load returns, the new song has a default volume and setting it returns; otherwise the configuration is kept and the position is never written; success iff the switch is recorded and the restore of the new song returns; the time is saved under the given current song; every position write carries the new song's saved time |
| Playback.ChangeSong | server/player/Player.js:116-154 | a failing fade-out changes nothing; the full switch {default volume, same mute, paused, new song} is recorded iff the fade-out, the load and the volume write return and the song has a default volume, else the configuration is kept and the position is never written; success iff additionally the restore returns; the time is saved under the given current song; no fade-out when paused |
| Playback.ChangeSongBypassesMute | server/player/Player.js:135-146 | a successful switch while muted sends a non-zero default volume to the device and stays muted |
| Playback.ChangeSongSavesUnderClaimedSong | server/hardware/DeviceHandler.js:117-120 | the position is saved under the song name the client passed, whichever song is playing |
| Playback.ChangeSongBackRestoresPosition | server/player/Player.js:116-154 | switching a to b and back restores a only to the position saved when a was left |
| Locks.WithLock | server/lock/LockCoordinator.js:28-35 | the gate refuses iff held; otherwise it runs the body, a throwing body's error propagates, and the gate is free again afterwards either way |
| Locks.BeginAdminOperation | server/lock/AdminExclusiveLockManager.js:24-33 | refused when the gate is held; an active override is left as is; otherwise the snapshot is taken and the flag raised; flag and snapshot stay consistent |
| Locks.EndAdminOperation | server/lock/AdminExclusiveLockManager.js:38-43 | the reset clears flag and snapshot only when the gate is free, and otherwise changes nothing |
| Locks.WithAdminOperation | server/lock/AdminExclusiveLockManager.js:23-44 | the callback runs iff the gate was free and the gate reports acquisition; if it ran, the override is cleared afterwards and the result is true exactly when the callback returned |
| Locks.SecondOverrideIsNotRefused | server/lock/AdminExclusiveLockManager.js:24-33 | an override started while one is active still runs and clears the first |
| Locks.CallbackValueReadingStrandsOverride | server/lock/AdminExclusiveLockManager.js:24-33 | if the body's value is what the gate returns, the callback never runs and the override stays active with its snapshot |
| Locks.GetSavedUserState | server/lock/AdminExclusiveLockManager.js:58-60 | the snapshot is missing exactly when no override is active |
| Locks.WithUserLock | server/lock/LockCoordinator.js:33-35 | refused exactly when the gate is held; an active override does not refuse it; a body it ran leaves the gate free |
| Locks.WithAdminLock | server/lock/LockCoordinator.js:43-45 | false when the gate is held or the gate passes the body's value through; with the gate free and acquisition reported, true when the callback returns and its error when it throws, and nothing stays locked |
| Locks.ReadView | server/handlers/stateHandlers.js:16-18 | the live configuration without an override, the snapshot with one |
| Locks.ReadViewIsSnapshot | server/lock/AdminExclusiveLockManager.js:29-30 | after an override starts, readers see the configuration at its start whatever the live one becomes |
| Handlers.Answer | server/handlers/stateHandlers.js:14-35 | volume is answered live; state, mute and song come from the snapshot during an override; lock status is gate or override |
| Handlers.Admit | server/handlers/stateHandlers.js:42-44 | change-state is skipped iff it asks for the recorded state; change-volume as wired throws; otherwise the body runs iff withUserLock (withLock for change-volume) completes, that is iff the gate is free |
| Handlers.RunBody | server/handlers/stateHandlers.js:44-52 | per request: change-state records Playing for PLAYING and Paused otherwise iff the fade completes and broadcasts the value sent; change-mute and change-volume store the value whatever the device does and broadcast it iff the device call returns; change-song is the player's changeSong and on success broadcasts paused, the new song and its default volume; nothing is broadcast on a throw |
| Handlers.Handle | server/handlers/stateHandlers.js:40-61 | the lock comes back unchanged; a refused or skipped request changes nothing and sends nothing; an admitted request runs its body, taking its player, trace and broadcasts, and is Done iff the body returned; a request whose lock call throws fails with no effect |
| Handlers.GettersDuringOverride | server/handlers/muteHandlers.js:14-23 | during an override get-state, get-mute and get-song answer the snapshot but get-volume answers live |
| Handlers.ChangeStateShortCircuit | server/handlers/stateHandlers.js:42 | asking for the recorded state does nothing, even while the gate is held |
| Handlers.ChangeStateDispatch | server/handlers/stateHandlers.js:44-52 | PLAYING fades in and any other value fades out; the value sent is broadcast iff the fade completed |
| Handlers.ChangeStateOddValue | server/handlers/stateHandlers.js:45-51 | with the gate free and no device fault, a state value other than 0 or 1 pauses the player and is broadcast as sent |
| Handlers.ChangeSongBroadcasts | server/handlers/songHandlers.js:32-38 | a completed change-song broadcasts paused, the new song and its default volume, in that order |
| Handlers.ChangeSongFromInitialState | server/handlers/songHandlers.js:30-47 | from a new player, slow to fast gives {35, unmuted, paused, fast} and the broadcasts (0, "fast", 35) |
| Handlers.ChangeSongRestoreFailureIsSilent | server/handlers/songHandlers.js:32-38 | when only the position restore throws, at any call or because the cap ran out, the new song is recorded and nobody is told |
| Handlers.ChangeMuteRepeats | server/handlers/muteHandlers.js:28-42 | repeating the current mute value still drives the device and broadcasts |
| Handlers.ChangeVolumeAsWiredFails | server/handlers/volumeHandlers.js:26-31 | with the coordinator as lock manager, change-volume never changes or sends anything |
| Handlers.ChangeVolumeThroughGate | server/handlers/volumeHandlers.js:26-31 | with a real gate, change-volume stores and broadcasts the value unchecked |
| Handlers.OverrideDoesNotBlockWriters | server/lock/LockCoordinator.js:24-35 | during an override a client can still change the live player while readers see the snapshot |
| Session.InitialInv | server/lock/AdminExclusiveLockManager.js:5-7 | the server starts unlocked with the initial configuration and the invariant holds |
| Session.Step | server/lock/AdminExclusiveLockManager.js:23-44 | every event keeps the invariant (gate held iff a body is in flight); a mutation arriving while one is in flight is refused with no effect; only an admin finish can end an active override |
| Session.Run | server/lock/AdminExclusiveLockManager.js:23-44 | any sequence of events keeps the invariant |
| Session.LockedIffBusy | server/lock/LockCoordinator.js:24-26 | isLocked is true exactly while a user body is in flight or an override is active |
| Session.SimultaneousPlayRequests | server/handlers/stateHandlers.js:40-61 | of two simultaneous play requests one runs and the other is refused; one fade, one broadcast |
| Session.AdminStartThenFinishIsWithAdminLock | server/lock/LockCoordinator.js:43-45 | an admin start directly followed by its callback's end gives withAdminLock's lock state and result, player untouched |
| Session.ArriveThenFinishIsHandle | server/handlers/stateHandlers.js:44-57 | with nothing in flight, a mutating arrival starts exactly when the admission check lets it in; one that does not start is answered at once as Handle answers it; one that starts, followed directly by completion, equals handling the request in one step |
| Session.SnapshotStable | server/lock/AdminExclusiveLockManager.js:23-44 | until an admin finish, an active override and its snapshot survive every event |
| Session.OverrideOutlivesItsOperation | server/lock/AdminExclusiveLockManager.js:38-43 | an admin callback finishing while a user body holds the gate leaves the override active, and the server locked, with no admin operation left |
| Logging.Assign | server/utils/logger.js:52-59 | assigning a key: that key reads the new value, others are unchanged; an existing key keeps its place, a new one goes last |
| Logging.Merge | server/utils/logger.js:52-59 | spreading keeps the base keys first and in order and keeps keys distinct; keys of extra read extra's value, all others the base value |
| Logging.CreateContext | server/utils/logger.js:52-59 | module and socketId come first and no key appears twice |
| Logging.CreateContextLookup | server/utils/logger.js:52-59 | extra overrides module and socketId; otherwise module is the name given, socketId the socket's id, and no other key exists |
| Logging.NoSocketLogsUndefined | server/utils/logger.js:55 | without a socket, socketId is undefined unless extra sets it |
| Logging.SplitJoin | server/utils/logger.js:17 | splitting a comma-joined list of comma-free parts gives back the parts |
| Logging.ContextString | server/utils/logger.js:16-18 | the suffix is empty iff the context has no keys, otherwise bracketed |
| Logging.ContextStringSplitsIntoPairs | server/utils/logger.js:16-18 | when no key and no value contains a comma, the bracketed text splits back into one k=v pair per key, in key order |
| Logging.Upper | server/utils/logger.js:20 | upper-casing keeps the length, maps each ASCII lower-case letter to its upper-case letter, leaves every other character, and leaves no lower-case letter |
| Logging.UpperIdempotent | server/utils/logger.js:20 | upper-casing twice is upper-casing once |
| Logging.LogLine | server/utils/logger.js:20 | the line holds the upper-cased level in brackets after the timestamp and ends with the context suffix |
| Logging.NewLogger | server/utils/logger.js:2-5 | a new logger holds no entries |
| Logging.Push | server/utils/logger.js:25-28 | the new entry is last; the buffer never exceeds 1000; below capacity nothing is dropped |
| Logging.BufferKeepsNewest | server/utils/logger.js:24-28 | after any number of log calls the buffer is the newest 1000 entries in logging order |
| Logging.Log | server/utils/logger.js:7-28 | the buffer becomes the newest 1000 of the old entries plus the given one, a missing context is empty, and the line is formatted from it |
| Logging.LogAt | server/utils/logger.js:33-47 | each level method stores its own level name |
| Logging.FacadeLog | server/utils/logger.js:62-78 | facade entries carry createContext's context, which is never empty, so the line ends in a bracket |

## Left out

- The fade volumes are computed with `Math.cos` and `Math.sin` on floating point. They are kept only as step numbers, in order.
- Playback positions are abstract `real` values compared only for equality. `parseFloat` on engine text is an input, not modelled.
- The audio engine binding (`MPVHandler`, a foreign library) is not part of this model. Its calls are commands, and its failures are fault indices.
- Timers and `await` delays are not modelled. Suspension is shown only as the split into `Arrive` and `Finish` events in `Session`.
- The gate (`NetworkLockManager`) is not part of this model, nor is its lock-status broadcast. It is represented by its documented boolean result and the assumed release-on-every-path and error propagation described above.
- What an admin callback does is not modelled. No caller of `withAdminLock` is known in the repository; the console handlers take the user lock (`withUserLock`), and the admin authentication handlers take no lock.
- Server start-up (`server.js`), socket wiring and the mic and aux console commands are not modelled.
- Timestamps are a parameter, and the console output is only the returned line.
- The logger calls inside handlers and `Player` only produce console output and buffer entries, so they are not modelled there.
- Client payloads are not modelled when they are non-integer numbers, non-numeric (for state, mute and volume) or non-string (for songs). The handlers would pass them through unchanged.
- Faults inside the constructors are left out: `DeviceHandler` swallows its own, and a throwing engine binding would abort start-up.
- Context keys that look like integers, which JavaScript orders first, are not modelled. Context values other than strings and undefined are not modelled either.
- Logging.Upper: models `toUpperCase` on ASCII letters only. Non-ASCII case mapping is not modelled.
- Concurrent admin callbacks are only counted; what they do is not modelled.
- MediaConfig.DefaultSongVolume: a name inherited by every JavaScript object ("constructor", "toString", "__proto__", ...) reads a function or an object from `DEFAULT_SONG_VOLUMES`, not undefined; the model treats every name other than "slow" and "fast" as undefined, because it has no value for functions.
- Device.ChangeSong: storing a number under "__proto__" is ignored by JavaScript, but the model records it like any other name; other inherited names are stored as own keys as modelled.
- Device.LoadLastSongTime: for an inherited name such as "constructor" the saved time reads a function, whose `toString` succeeds, so the source does not throw before writing; the model throws with no engine call for every name not in the table.
- Playback.ChangeSong: for an inherited name the source records the switch with a function as volume, where the model fails at the volume write; this follows from the DefaultSongVolume line above.
- Playback.SwitchTrack: the same gap for inherited song names as Playback.ChangeSong, which it is the second half of.
- Handlers.RunBody: its change-song case inherits the same gap for inherited song names, through Playback.ChangeSong.

=== FILE: device.dfy ===
/**
  The device layer (DeviceHandler) as traces of commands sent to the audio
  engine.

  The engine itself is outside the model: every call to it is a `Command`,
  what it answers to a read is an input, and whether a call throws is given
  by a `fault`: the index, within one operation's own calls, of the call
  that throws (None: no call throws). The throwing call counts as issued,
  and nothing after it is. Fade volumes are floating point and are kept only
  as the step number they were computed from; playback offsets are compared
  only for exact equality.
 */
module Device {
  import opened MediaConfig

  /** A playback offset in seconds. */
  type Seconds = real

  datatype Command =
    | SetLoopInfinite                     // property "loop" := "inf"
    | LoadFile(index: nat)                // command loadfile PLAYLIST[index]
    | ReadVolume                          // read property "volume" (V0)
    | FadeStep(fadeIn: bool, step: nat)   // property "volume" := V0 * sin/cos(pi/2 * step/30)
    | ZeroVolume                          // property "volume" := "0"
    | RestoreVolume                       // property "volume" := V0
    | SetPause(paused: bool)              // property "pause" := "yes" / "no"
    | SetVolumeOption(volume: int)        // option "volume" := volume
    | ReadPlaybackTime                    // read property "playback-time"
    | SetPlaybackTime(time: Seconds)      // property "playback-time" := time

  /** The calls one device operation issued, and whether it returned normally. */
  datatype Run = Run(trace: seq<Command>, ok: bool)

  /** Does a fault at this index interrupt a list of `n` calls? */
  predicate Hits(fault: Option<nat>, n: nat) {
    fault.Some? && fault.value < n
  }

  /** Issues `calls` in order until the faulty one, which throws. */
  function Issue(calls: seq<Command>, fault: Option<nat>): (r: Run)
    ensures r.ok <==> !Hits(fault, |calls|)
    ensures r.ok ==> r.trace == calls
    ensures !r.ok ==> r.trace == calls[..fault.value + 1]
  {
    if Hits(fault, |calls|) then Run(calls[..fault.value + 1], false) else Run(calls, true)
  }

  /** Number of elements of `s` satisfying `p`. */
  function Count(s: seq<Command>, p: Command -> bool): nat
  {
    if |s| == 0 then 0 else (if p(s[0]) then 1 else 0) + Count(s[1..], p)
  }

  lemma {:induction false} CountAppend(a: seq<Command>, b: seq<Command>, p: Command -> bool)
    ensures Count(a + b, p) == Count(a, p) + Count(b, p)
  {
    if |a| == 0 {
      assert a + b == b;
    } else {
      assert (a + b)[1..] == a[1..] + b;
      CountAppend(a[1..], b, p);
    }
  }

  /** Writes of the "volume" property or option. */
  predicate IsVolumeWrite(c: Command) {
    c.FadeStep? || c.ZeroVolume? || c.RestoreVolume? || c.SetVolumeOption?
  }

  predicate IsPositionWrite(c: Command) {
    c.SetPlaybackTime?
  }

  function VolumeWrites(s: seq<Command>): nat {
    Count(s, IsVolumeWrite)
  }

  function PositionWrites(s: seq<Command>): nat {
    Count(s, IsPositionWrite)
  }

  /** The fade loop runs i = 0 .. 30. */
  const FADE_STEPS: nat := 31

  /** The volume writes of the first `n` fade steps, in step order. */
  function Fade(fadeIn: bool, n: nat): (s: seq<Command>)
    ensures |s| == n
    ensures forall i :: 0 <= i < n ==> s[i] == FadeStep(fadeIn, i)
  {
    seq(n, i requires 0 <= i < n => FadeStep(fadeIn, i))
  }

  /** A sequence whose every element satisfies `p` counts fully. */
  lemma {:induction false} CountAll(s: seq<Command>, p: Command -> bool)
    requires forall i :: 0 <= i < |s| ==> p(s[i])
    ensures Count(s, p) == |s|
  {
    if |s| > 0 {
      CountAll(s[1..], p);
    }
  }

  /** A sequence with no element satisfying `p` counts nothing. */
  lemma {:induction false} CountNone(s: seq<Command>, p: Command -> bool)
    requires forall i :: 0 <= i < |s| ==> !p(s[i])
    ensures Count(s, p) == 0
  {
    if |s| > 0 {
      CountNone(s[1..], p);
    }
  }

  /** Every fade step is a volume write. */
  lemma FadeVolumeWrites(fadeIn: bool, n: nat)
    ensures VolumeWrites(Fade(fadeIn, n)) == n
  {
    CountAll(Fade(fadeIn, n), IsVolumeWrite);
  }

  /** pause(): read V0, fade out, pause, restore V0. */
  function PauseCalls(): seq<Command> {
    [ReadVolume] + Fade(false, FADE_STEPS) + [SetPause(true), RestoreVolume]
  }

  /** resume(): read V0, silence, unpause, fade in. */
  function ResumeCalls(): seq<Command> {
    [ReadVolume, ZeroVolume, SetPause(false)] + Fade(true, FADE_STEPS)
  }

  /**
    Fade-out then pause. On success exactly 31 volume writes (steps 0..30 in
    order) come before "pause" := "yes", which is followed by the restore of
    the volume read at entry.
   */
  function Pause(fault: Option<nat>): (r: Run)
    ensures r.ok <==> !Hits(fault, 34)
    ensures r.ok ==> |r.trace| == 34 && r.trace[0] == ReadVolume
    ensures r.ok ==> VolumeWrites(r.trace[..32]) == FADE_STEPS
    ensures r.ok ==> r.trace[32] == SetPause(true) && r.trace[33] == RestoreVolume
    ensures forall i :: 1 <= i < 32 && i < |r.trace| ==> r.trace[i] == FadeStep(false, i - 1)
    ensures SetPause(true) in r.trace <==> !Hits(fault, 32)
    ensures !r.ok ==> |r.trace| == fault.value + 1
    ensures |r.trace| > 0 && r.trace[0] == ReadVolume
    ensures forall i :: 0 <= i < |r.trace| ==> !r.trace[i].SetPlaybackTime?
  {
    var calls := PauseCalls();
    assert calls[..32] == [ReadVolume] + Fade(false, FADE_STEPS);
    FadeVolumeWrites(false, FADE_STEPS);
    CountAppend([ReadVolume], Fade(false, FADE_STEPS), IsVolumeWrite);
    assert forall i :: 0 <= i < 32 ==> calls[i] != SetPause(true);
    assert calls[32] == SetPause(true);
    Issue(calls, fault)
  }

  /**
    Fade-in: volume "0", then "pause" := "no", then exactly 31 volume writes
    in step order.
   */
  function Resume(fault: Option<nat>): (r: Run)
    ensures r.ok <==> !Hits(fault, 34)
    ensures r.ok ==> |r.trace| == 34 && r.trace[..3] == [ReadVolume, ZeroVolume, SetPause(false)]
    ensures r.ok ==> VolumeWrites(r.trace[3..]) == FADE_STEPS
    ensures forall i :: 3 <= i < |r.trace| ==> r.trace[i] == FadeStep(true, i - 3)
    ensures SetPause(true) !in r.trace
    ensures !r.ok ==> |r.trace| == fault.value + 1
  {
    var calls := ResumeCalls();
    assert calls[3..] == Fade(true, FADE_STEPS);
    FadeVolumeWrites(true, FADE_STEPS);
    assert forall i :: 0 <= i < |calls| ==> calls[i] != SetPause(true);
    Issue(calls, fault)
  }

  /**
    setVolume(volume): the volume is sent as an option. An undefined volume
    (a song without a default) throws while being converted to text, before
    the device is called.
   */
  function SetVolume(volume: Option<int>, fault: Option<nat>): (r: Run)
    ensures volume.None? ==> !r.ok && r.trace == []
    ensures volume.Some? ==> r.trace == [SetVolumeOption(volume.value)]
    ensures volume.Some? ==> (r.ok <==> !Hits(fault, 1))
  {
    match volume
    case None => Run([], false)
    case Some(v) => Issue([SetVolumeOption(v)], fault)
  }

  /** DEVICE_CONFIG.PLAYLIST */
  const PLAYLIST: seq<string> := ["./assets/audio/music_slow.mp3", "./assets/audio/music_fast.mp3"]

  /** DEVICE_CONFIG.INITIAL_SONG_TIMES */
  const INITIAL_SONG_TIMES: map<string, Seconds> := map[SLOW := 0.0, FAST := 0.0]

  /** The handler's own state: the saved position of every song it has left. */
  datatype DeviceState = DeviceState(songTimes: map<string, Seconds>)

  /** A device operation that may change the saved positions. */
  datatype Step = Step(device: DeviceState, trace: seq<Command>, ok: bool)

  /**
    The constructor: a private copy of the initial position table, then
    looping on, the first playlist entry loaded, and paused. A failure of any
    of these three calls is logged and swallowed.
   */
  function Initialize(): (r: Step)
    ensures r.ok
    ensures r.device.songTimes.Keys == {SLOW, FAST}
    ensures forall song :: song in r.device.songTimes ==> r.device.songTimes[song] == 0.0
    ensures LoadFile(0) in r.trace && r.trace[|r.trace| - 1] == SetPause(true)
  {
    Step(DeviceState(INITIAL_SONG_TIMES), [SetLoopInfinite, LoadFile(0), SetPause(true)], true)
  }

  /** "slow" is the first playlist entry; every other name selects the second. */
  function SongIndex(song: string): (i: nat)
    ensures i < |PLAYLIST|
    ensures i == 0 <==> song == SLOW
  {
    if song == SLOW then 0 else 1
  }

  /**
    The current playback time as saved: a read that throws or does not
    parse (None), or parses to zero, gives 0.
   */
  function SavedTime(read: Option<Seconds>): (t: Seconds)
    ensures read.None? ==> t == 0.0
    ensures read.Some? ==> t == read.value
  {
    match read
    case None => 0.0
    case Some(x) => x
  }

  /**
    changeSong(currentSong, newSong): save the current time under `currentSong` (and under no
    other key), then load the file for `newSong`. The table is written before
    the load, so a load that throws still leaves it updated.
   */
  function ChangeSong(d: DeviceState, currentSong: string, newSong: string, timeRead: Option<Seconds>,
                      loadFault: Option<nat>): (r: Step)
    ensures r.device.songTimes.Keys == d.songTimes.Keys + {currentSong}
    ensures r.device.songTimes[currentSong] == SavedTime(timeRead)
    ensures forall song :: song in d.songTimes && song != currentSong ==> r.device.songTimes[song] == d.songTimes[song]
    ensures r.trace == [ReadPlaybackTime, LoadFile(SongIndex(newSong))]
    ensures r.ok <==> !Hits(loadFault, 1)
  {
    var times := d.songTimes[currentSong := SavedTime(timeRead)];
    var load := Issue([LoadFile(SongIndex(newSong))], loadFault);
    Step(DeviceState(times), [ReadPlaybackTime] + load.trace, load.ok)
  }

  /* ---------- Position restore (loadLastSongTime) ---------- */

  /**
    The attempt cap. DEVICE_CONFIG defines no MAX_PROPERTY_SET_ATTEMPTS, so
    as shipped the cap is undefined (None), and every comparison with it is
    false.
   */
  predicate BelowCap(attempts: nat, cap: Option<nat>) {
    cap.Some? && attempts < cap.value
  }

  predicate CapReached(attempts: nat, cap: Option<nat>) {
    cap.Some? && attempts >= cap.value
  }

  /** The most attempts the do/while loop can make under a cap. */
  function MaxAttempts(cap: Option<nat>): nat {
    if cap.Some? && cap.value > 1 then cap.value else 1
  }

  /** The k-th position read back; reads past the given ones do not parse. */
  function ReadAt(readbacks: seq<Option<Seconds>>, k: nat): Option<Seconds> {
    if k < |readbacks| then readbacks[k] else None
  }

  /**
    Attempt number k (0-based) of the restore loop and all that follow it:
    write the target, read the position back, and go on while the read
    differs and the attempt count is below the cap. Afterwards the loop
    throws when the count has reached the cap, whatever the last read was.
   */
  function Attempts(target: Seconds, cap: Option<nat>, readbacks: seq<Option<Seconds>>,
                    fault: Option<nat>, k: nat): (r: Run)
    requires k < MaxAttempts(cap)
    decreases MaxAttempts(cap) - k
    ensures 1 <= PositionWrites(r.trace) <= MaxAttempts(cap) - k
    ensures forall c :: c in r.trace ==> c == SetPlaybackTime(target) || c == ReadPlaybackTime
  {
    var attempt := [SetPlaybackTime(target), ReadPlaybackTime];
    CountAppend([SetPlaybackTime(target)], [ReadPlaybackTime], IsPositionWrite);
    if fault == Some(2 * k) then Run([SetPlaybackTime(target)], false)
    else if fault == Some(2 * k + 1) then Run(attempt, false)
    else if ReadAt(readbacks, k) != Some(target) && BelowCap(k + 1, cap) then
      var rest := Attempts(target, cap, readbacks, fault, k + 1);
      CountAppend(attempt, rest.trace, IsPositionWrite);
      Run(attempt + rest.trace, rest.ok)
    else
      Run(attempt, !CapReached(k + 1, cap))
  }

  /**
    loadLastSongTime(song): restore the saved position of `song`. A song
    with no saved position throws before any call. The table is not changed.
   */
  function LoadLastSongTime(d: DeviceState, song: string, cap: Option<nat>,
                            readbacks: seq<Option<Seconds>>, fault: Option<nat>): (r: Step)
    ensures r.device == d
    ensures song !in d.songTimes ==> !r.ok && r.trace == []
    ensures song in d.songTimes ==> 1 <= PositionWrites(r.trace) <= MaxAttempts(cap)
    ensures song in d.songTimes ==>
      forall c :: c in r.trace ==> c == SetPlaybackTime(d.songTimes[song]) || c == ReadPlaybackTime
  {
    if song !in d.songTimes then Step(d, [], false)
    else
      var run := Attempts(d.songTimes[song], cap, readbacks, fault, 0);
      Step(d, run.trace, run.ok)
  }

  /** A run preceded by calls that already returned. */
  function Prefixed(done: seq<Command>, r: Run): Run {
    Run(done + r.trace, r.ok)
  }

  lemma PrefixedTwice(a: seq<Command>, b: seq<Command>, r: Run)
    ensures Prefixed(a, Prefixed(b, r)) == Prefixed(a + b, r)
  {
    assert a + (b + r.trace) == (a + b) + r.trace;
  }

  /** One attempt of the restore loop, case by case. */
  lemma AttemptsUnfold(target: Seconds, cap: Option<nat>, readbacks: seq<Option<Seconds>>,
                       fault: Option<nat>, k: nat)
    requires k < MaxAttempts(cap)
    ensures var here := Attempts(target, cap, readbacks, fault, k);
            var attempt := [SetPlaybackTime(target), ReadPlaybackTime];
            var faultless := fault != Some(2 * k) && fault != Some(2 * k + 1);
            var again := ReadAt(readbacks, k) != Some(target) && BelowCap(k + 1, cap);
            && (fault == Some(2 * k) ==> here == Run([SetPlaybackTime(target)], false))
            && (fault == Some(2 * k + 1) ==> here == Run(attempt, false))
            && (faultless && !again ==> here == Run(attempt, !CapReached(k + 1, cap)))
            && (faultless && again ==>
                  k + 1 < MaxAttempts(cap) && here == Prefixed(attempt, Attempts(target, cap, readbacks, fault, k + 1)))
  {
  }

  /** The restore loop written as the source's do/while loop. */
  method RestorePosition(d: DeviceState, song: string, cap: Option<nat>,
                         readbacks: seq<Option<Seconds>>, fault: Option<nat>) returns (r: Step)
    ensures r == LoadLastSongTime(d, song, cap, readbacks, fault)
  {
    if song !in d.songTimes {
      return Step(d, [], false);
    }
    var target := d.songTimes[song];
    var write := SetPlaybackTime(target);
    var attempts: nat := 0;
    var trace: seq<Command> := [];
    while true
      invariant attempts < MaxAttempts(cap)
      invariant Attempts(target, cap, readbacks, fault, 0)
        == Prefixed(trace, Attempts(target, cap, readbacks, fault, attempts))
      decreases MaxAttempts(cap) - attempts
    {
      AttemptsUnfold(target, cap, readbacks, fault, attempts);
      if fault == Some(2 * attempts) {
        return Step(d, trace + [write], false);
      }
      if fault == Some(2 * attempts + 1) {
        return Step(d, trace + [write, ReadPlaybackTime], false);
      }
      var matched := ReadAt(readbacks, attempts) == Some(target);
      ghost var before := trace;
      trace := trace + [write, ReadPlaybackTime];
      attempts := attempts + 1;
      if matched || !BelowCap(attempts, cap) {
        return Step(d, trace, !CapReached(attempts, cap));
      }
      PrefixedTwice(before, [write, ReadPlaybackTime], Attempts(target, cap, readbacks, fault, attempts));
    }
  }

  /**
    With a cap m and no device fault, attempt k onwards succeeds exactly
    when some read from attempt k on matches before the count reaches m.
   */
  lemma {:induction false} AttemptsOkIff(target: Seconds, m: nat, readbacks: seq<Option<Seconds>>, k: nat)
    requires k < MaxAttempts(Some(m))
    decreases MaxAttempts(Some(m)) - k
    ensures Attempts(target, Some(m), readbacks, None, k).ok
        <==> exists j: nat :: k <= j && j + 1 < m && ReadAt(readbacks, j) == Some(target)
  {
    if ReadAt(readbacks, k) == Some(target) {
      if k + 1 < m {
        assert k <= k && k + 1 < m && ReadAt(readbacks, k) == Some(target);
      }
    } else if BelowCap(k + 1, Some(m)) {
      AttemptsOkIff(target, m, readbacks, k + 1);
      assert forall j: nat :: k <= j && j + 1 < m && ReadAt(readbacks, j) == Some(target) ==> k + 1 <= j;
    }
  }

  /**
    With a cap m, no device fault and no matching read before attempt m, the
    loop makes every remaining attempt and throws.
   */
  lemma {:induction false} AttemptsExhausted(target: Seconds, m: nat, readbacks: seq<Option<Seconds>>, k: nat)
    requires k < m
    requires forall j :: k <= j < m - 1 ==> ReadAt(readbacks, j) != Some(target)
    decreases m - k
    ensures !Attempts(target, Some(m), readbacks, None, k).ok
    ensures PositionWrites(Attempts(target, Some(m), readbacks, None, k).trace) == m - k
  {
    var attempt := [SetPlaybackTime(target), ReadPlaybackTime];
    CountAppend([SetPlaybackTime(target)], [ReadPlaybackTime], IsPositionWrite);
    if k + 1 < m {
      AttemptsExhausted(target, m, readbacks, k + 1);
      var rest := Attempts(target, Some(m), readbacks, None, k + 1);
      CountAppend(attempt, rest.trace, IsPositionWrite);
    }
  }

  /**
    With a cap m and no device fault, restoring a saved song succeeds
    exactly when a read matches the saved time before the m-th attempt.
   */
  lemma RestoreOkIffEarlyMatch(d: DeviceState, song: string, m: nat, readbacks: seq<Option<Seconds>>)
    requires song in d.songTimes
    ensures LoadLastSongTime(d, song, Some(m), readbacks, None).ok
        <==> exists j: nat :: j + 1 < m && ReadAt(readbacks, j) == Some(d.songTimes[song])
  {
    AttemptsOkIff(d.songTimes[song], m, readbacks, 0);
  }

  /**
    The loop throws once the count reaches the cap even when the last read
    matched: here every earlier read missed and the m-th one hit.
   */
  lemma RestoreThrowsWhenLastReadMatches(d: DeviceState, song: string, m: nat, readbacks: seq<Option<Seconds>>)
    requires song in d.songTimes && m >= 1
    requires ReadAt(readbacks, m - 1) == Some(d.songTimes[song])
    requires forall j :: 0 <= j < m - 1 ==> ReadAt(readbacks, j) != Some(d.songTimes[song])
    ensures !LoadLastSongTime(d, song, Some(m), readbacks, None).ok
    ensures PositionWrites(LoadLastSongTime(d, song, Some(m), readbacks, None).trace) == m
  {
    AttemptsExhausted(d.songTimes[song], m, readbacks, 0);
  }

  /**
    As shipped (no cap defined) the loop writes the position once and never
    throws, whatever is read back.
   */
  lemma RestoreWithoutCapWritesOnce(d: DeviceState, song: string, readbacks: seq<Option<Seconds>>)
    requires song in d.songTimes
    ensures LoadLastSongTime(d, song, None, readbacks, None).ok
    ensures PositionWrites(LoadLastSongTime(d, song, None, readbacks, None).trace) == 1
  {
    var target := d.songTimes[song];
    CountAppend([SetPlaybackTime(target)], [ReadPlaybackTime], IsPositionWrite);
  }
}

=== FILE: handlers.dfy ===
/**
  The socket request handlers as step functions

      (live player, lock state, request) -> (player, events emitted, device calls, outcome).

  A read-only request answers the sender. A mutating request passes an
  admission check (a same-value short cut, the gate), then runs its body
  with the gate held and broadcasts to all clients only if the body
  returned normally. Errors are caught and logged by the handler; the log
  output itself is not modelled here.
 */
module Handlers {
  import opened MediaConfig
  import Device
  import Playback
  import opened Locks

  /** A value as it travels to a client. */
  datatype Payload = Num(n: int) | Text(s: string) | Flag(b: bool) | Undefined

  datatype ServerEvent =
    | StateChanged(payload: Payload)
    | VolumeChanged(payload: Payload)
    | MuteChanged(payload: Payload)
    | SongChanged(payload: Payload)
    | LockChanged(payload: Payload)

  /** `socket.emit` answers the sender; `io.emit` broadcasts to every client. */
  datatype Emit = ToSender(event: ServerEvent) | ToAll(event: ServerEvent)

  datatype Request =
    | GetVolume
    | GetState
    | GetMute
    | GetCurrentSong
    | GetLock
    | ChangeState(newState: int)
    | ChangeMute(newMute: int)
    | ChangeVolume(newVolume: int)
    | ChangeSong(currentSong: string, newSong: string)
  {
    predicate IsQuery() {
      GetVolume? || GetState? || GetMute? || GetCurrentSong? || GetLock?
    }
  }

  /**
    What the volume handler was given as its lock manager: as wired, the
    LockCoordinator; the alternative is a gate that does offer withLock.
   */
  datatype VolumeLock = WiredCoordinator | NetworkGate

  /** What the device does while one request runs. */
  datatype DeviceEnv = DeviceEnv(fault: Option<nat>, song: Playback.SongEnv)

  datatype Outcome =
    | Answered    // a read-only request was answered
    | Unchanged   // change-state to the state already recorded: nothing done
    | Denied      // the gate was held: request refused
    | Done        // the body returned normally and its broadcasts went out
    | Failed      // an error was caught and logged

  datatype Reply = Reply(
    player: Playback.Player,
    lock: LockState,
    emitted: seq<Emit>,
    trace: seq<Device.Command>,
    outcome: Outcome)

  /* ---------- Read-only requests ---------- */

  /** A field of the read view, undefined when the view is missing. */
  function ViewPayload(view: Option<PlayerConfig>, field: PlayerConfig -> Payload): Payload {
    match view
    case None => Undefined
    case Some(c) => field(c)
  }

  /**
    The answer to a read-only request. Volume is read live; state, mute and
    song come from the read view; lock status reads both locks without
    taking the gate.
   */
  function Answer(p: Playback.Player, ls: LockState, req: Request): (e: ServerEvent)
    requires req.IsQuery()
    ensures req == GetVolume ==> e == VolumeChanged(Num(p.config.serverVolume))
    ensures req == GetLock ==> e == LockChanged(Flag(ls.gateHeld || ls.adminActive))
    ensures req == GetState && !ls.adminActive ==> e == StateChanged(Num(p.config.state.Code()))
    ensures req == GetMute && !ls.adminActive ==> e == MuteChanged(Num(p.config.muted))
    ensures req == GetCurrentSong && !ls.adminActive ==> e == SongChanged(Text(p.config.currentSong))
    ensures Valid(ls) && ls.adminActive ==>
      var snap := ls.savedUserState.value;
      && (req == GetState ==> e == StateChanged(Num(snap.state.Code())))
      && (req == GetMute ==> e == MuteChanged(Num(snap.muted)))
      && (req == GetCurrentSong ==> e == SongChanged(Text(snap.currentSong)))
  {
    var view := ReadView(ls, p.config);
    match req
    case GetVolume => VolumeChanged(Num(Playback.GetVolume(p)))
    case GetState => StateChanged(ViewPayload(view, (c: PlayerConfig) => Num(c.state.Code())))
    case GetMute => MuteChanged(ViewPayload(view, (c: PlayerConfig) => Num(c.muted)))
    case GetCurrentSong => SongChanged(ViewPayload(view, (c: PlayerConfig) => Text(c.currentSong)))
    case GetLock => LockChanged(Flag(IsLocked(ls)))
  }

  /* ---------- Mutating requests ---------- */

  datatype Admission = Skip | Deny | Crash | Enter

  /**
    Before the body: change-state returns early when the requested value
    equals the live state (without looking at the gate); the volume handler
    calls `withLock` on the object it was given, which a LockCoordinator
    does not have, so the call throws, while a real gate decides itself;
    the other handlers ask the coordinator's withUserLock.
   */
  function Admit(p: Playback.Player, ls: LockState, req: Request, volumeLock: VolumeLock): (a: Admission)
    requires !req.IsQuery()
    ensures a == Skip <==> req.ChangeState? && req.newState == p.config.state.Code()
    ensures a == Crash <==> req.ChangeVolume? && volumeLock == WiredCoordinator
    ensures a == Enter <==> !ls.gateHeld && a != Skip && a != Crash
    ensures !req.ChangeVolume? && a != Skip ==> (a == Enter <==> WithUserLock(ls, false).outcome == Completed)
    ensures req.ChangeVolume? && a != Crash ==> (a == Enter <==> WithLock(ls.gateHeld, false).outcome == Completed)
  {
    match req
    case ChangeState(s) =>
      if s == p.config.state.Code() then Skip else UserGate(ls)
    case ChangeVolume(_) =>
      if volumeLock == WiredCoordinator then Crash
      else if WithLock(ls.gateHeld, false).outcome == Refused then Deny else Enter
    case _ =>
      UserGate(ls)
  }

  /** Admission through withUserLock: refused exactly when the gate is held. */
  function UserGate(ls: LockState): Admission {
    if WithUserLock(ls, false).outcome == Refused then Deny else Enter
  }

  /** DEFAULT_SONG_VOLUMES[newSong] as broadcast. */
  function DefaultVolumePayload(song: string): Payload {
    match DefaultSongVolume(song)
    case None => Undefined
    case Some(v) => Num(v)
  }

  datatype BodyRun = BodyRun(player: Playback.Player, emitted: seq<Emit>, trace: seq<Device.Command>, ok: bool)

  /**
    The body run under the gate. Broadcasts follow the player call and are
    sent only when it returned normally.
   */
  function RunBody(p: Playback.Player, req: Request, env: DeviceEnv): (b: BodyRun)
    requires !req.IsQuery()
    ensures !b.ok ==> b.emitted == []
    ensures b.ok ==> |b.emitted| > 0 && forall i :: 0 <= i < |b.emitted| ==> b.emitted[i].ToAll?
    ensures req.ChangeState? ==>
      var target := if req.newState == PLAYING_CODE then Playing else Paused;
      && (b.ok <==> !Device.Hits(env.fault, 34))
      && (b.ok ==> b.player == p.(config := p.config.(state := target))
                   && b.emitted == [ToAll(StateChanged(Num(req.newState)))])
      && (!b.ok ==> b.player == p)
    ensures req.ChangeMute? ==>
      && b.player == p.(config := p.config.(muted := req.newMute))
      && (b.ok <==> !Device.Hits(env.fault, 1))
      && (b.ok ==> b.emitted == [ToAll(MuteChanged(Num(req.newMute)))])
    ensures req.ChangeVolume? ==>
      && b.player == p.(config := p.config.(serverVolume := req.newVolume))
      && (b.ok <==> !Device.Hits(env.fault, 1))
      && (b.ok ==> b.emitted == [ToAll(VolumeChanged(Num(req.newVolume)))])
    ensures req.ChangeSong? ==>
      var song := Playback.ChangeSong(p, req.currentSong, req.newSong, env.song);
      && b.player == song.player && b.trace == song.trace && b.ok == song.ok
      && (b.ok ==> DefaultSongVolume(req.newSong).Some?
                   && b.player.config == Playback.Switched(p.config, req.newSong, DefaultSongVolume(req.newSong).value)
                   && b.emitted == [ToAll(StateChanged(Num(PAUSED_CODE))), ToAll(SongChanged(Text(req.newSong))),
                                    ToAll(VolumeChanged(Num(DefaultSongVolume(req.newSong).value)))])
  {
    match req
    case ChangeState(s) =>
      var r := if s == PLAYING_CODE then Playback.Play(p, env.fault) else Playback.Pause(p, env.fault);
      BodyRun(r.player, if r.ok then [ToAll(StateChanged(Num(s)))] else [], r.trace, r.ok)
    case ChangeMute(m) =>
      var r := Playback.SetMute(p, m, env.fault);
      BodyRun(r.player, if r.ok then [ToAll(MuteChanged(Num(m)))] else [], r.trace, r.ok)
    case ChangeVolume(v) =>
      var r := Playback.SetVolume(p, v, env.fault);
      BodyRun(r.player, if r.ok then [ToAll(VolumeChanged(Num(v)))] else [], r.trace, r.ok)
    case ChangeSong(current, next) =>
      var r := Playback.ChangeSong(p, current, next, env.song);
      var events := [ToAll(StateChanged(Num(PAUSED_CODE))), ToAll(SongChanged(Text(next))),
                     ToAll(VolumeChanged(DefaultVolumePayload(next)))];
      BodyRun(r.player, if r.ok then events else [], r.trace, r.ok)
  }

  /**
    One request, start to finish, with no other operation interleaved. The
    gate is taken and released inside, so the lock state comes back as it
    went in.
   */
  function Handle(p: Playback.Player, ls: LockState, req: Request, volumeLock: VolumeLock,
                  env: DeviceEnv): (r: Reply)
    ensures r.lock == ls
    ensures req.IsQuery() ==> r.player == p && r.emitted == [ToSender(Answer(p, ls, req))] && r.outcome == Answered
    ensures !req.IsQuery() ==> forall i :: 0 <= i < |r.emitted| ==> r.emitted[i].ToAll?
    ensures !req.IsQuery() && r.emitted != [] ==> r.outcome == Done
    ensures r.outcome == Done ==> !ls.gateHeld && r.emitted != []
    ensures r.outcome in {Unchanged, Denied} ==> r.player == p && r.emitted == [] && r.trace == []
    ensures ls.gateHeld && !req.IsQuery() ==> r.player == p && r.emitted == [] && r.trace == []
    ensures !req.IsQuery() && Admit(p, ls, req, volumeLock) == Enter ==>
      var b := RunBody(p, req, env);
      && r.player == b.player && r.emitted == b.emitted && r.trace == b.trace
      && (r.outcome == Done <==> b.ok)
    ensures !req.IsQuery() && Admit(p, ls, req, volumeLock) == Crash ==>
      r.outcome == Failed && r.player == p && r.emitted == [] && r.trace == []
  {
    if req.IsQuery() then Reply(p, ls, [ToSender(Answer(p, ls, req))], [], Answered)
    else
      match Admit(p, ls, req, volumeLock)
      case Skip => Reply(p, ls, [], [], Unchanged)
      case Deny => Reply(p, ls, [], [], Denied)
      case Crash => Reply(p, ls, [], [], Failed)
      case Enter =>
        var b := RunBody(p, req, env);
        Reply(b.player, ls, b.emitted, b.trace, if b.ok then Done else Failed)
  }

  /* ---------- Properties of individual handlers ---------- */

  /**
    get-state / get-mute / get-current-song answer from the snapshot during
    an override, but get-volume always answers the live volume.
   */
  lemma GettersDuringOverride(p: Playback.Player, ls: LockState, volumeLock: VolumeLock, env: DeviceEnv)
    requires Valid(ls) && ls.adminActive
    ensures Handle(p, ls, GetVolume, volumeLock, env).emitted == [ToSender(VolumeChanged(Num(p.config.serverVolume)))]
    ensures Handle(p, ls, GetState, volumeLock, env).emitted
         == [ToSender(StateChanged(Num(ls.savedUserState.value.state.Code())))]
    ensures Handle(p, ls, GetMute, volumeLock, env).emitted
         == [ToSender(MuteChanged(Num(ls.savedUserState.value.muted)))]
    ensures Handle(p, ls, GetCurrentSong, volumeLock, env).emitted
         == [ToSender(SongChanged(Text(ls.savedUserState.value.currentSong)))]
  {
  }

  /**
    change-state to the state already recorded returns before the gate is
    consulted: nothing runs, nothing is sent, even while the gate is held.
   */
  lemma ChangeStateShortCircuit(p: Playback.Player, ls: LockState, volumeLock: VolumeLock, env: DeviceEnv)
    ensures var r := Handle(p, ls, ChangeState(p.config.state.Code()), volumeLock, env);
            r.outcome == Unchanged && r.player == p && r.emitted == [] && r.trace == []
  {
  }

  /**
    change-state with the gate free: PLAYING plays and any other value
    pauses; the requested value itself is broadcast, and only after the
    player call returned.
   */
  lemma ChangeStateDispatch(p: Playback.Player, ls: LockState, s: int, volumeLock: VolumeLock, env: DeviceEnv)
    requires !ls.gateHeld && s != p.config.state.Code()
    ensures var r := Handle(p, ls, ChangeState(s), volumeLock, env);
            && (s == PLAYING_CODE ==> r.trace == Device.Resume(env.fault).trace)
            && (s != PLAYING_CODE ==> r.trace == Device.Pause(env.fault).trace)
            && (r.outcome == Done <==> !Device.Hits(env.fault, 34))
            && (r.outcome == Done ==> r.emitted == [ToAll(StateChanged(Num(s)))])
            && (r.outcome == Done ==> r.player.config.state == (if s == PLAYING_CODE then Playing else Paused))
            && (r.outcome != Done ==> r.player == p && r.emitted == [])
  {
  }

  /**
    A change-state value that is neither PAUSED nor PLAYING fades the
    player out (again, if already paused) and, when the device does not
    throw, broadcasts that value as the new state.
   */
  lemma ChangeStateOddValue(p: Playback.Player, ls: LockState, s: int, volumeLock: VolumeLock, env: DeviceEnv)
    requires !ls.gateHeld
    requires s != PAUSED_CODE && s != PLAYING_CODE && env.fault.None?
    ensures var r := Handle(p, ls, ChangeState(s), volumeLock, env);
            && r.outcome == Done
            && r.player.config.state == Paused
            && r.emitted == [ToAll(StateChanged(Num(s)))]
  {
  }

  /** A song change where no device call throws and the cap is undefined, as shipped. */
  function NoSongFaults(): Playback.SongEnv {
    Playback.SongEnv(None, None, None, None, None, [], None)
  }

  /**
    A successful change-song broadcasts, in order, the paused state, the
    new song and the new song's default volume.
   */
  lemma ChangeSongBroadcasts(p: Playback.Player, ls: LockState, current: string, next: string,
                             volumeLock: VolumeLock, env: DeviceEnv)
    requires Handle(p, ls, ChangeSong(current, next), volumeLock, env).outcome == Done
    ensures var r := Handle(p, ls, ChangeSong(current, next), volumeLock, env);
            && DefaultSongVolume(next).Some?
            && r.emitted == [ToAll(StateChanged(Num(PAUSED_CODE))), ToAll(SongChanged(Text(next))),
                             ToAll(VolumeChanged(Num(DefaultSongVolume(next).value)))]
            && r.player.config == Playback.Switched(p.config, next, DefaultSongVolume(next).value)
  {
  }

  /**
    From a new player, slow -> fast leaves {35, unmuted, paused, fast} and
    broadcasts stateChanged(0), songChanged("fast"), volumeChanged(35).
   */
  lemma ChangeSongFromInitialState()
    ensures var r := Handle(Playback.NewPlayer().player, INITIAL_LOCK_STATE, ChangeSong(SLOW, FAST),
                            NetworkGate, DeviceEnv(None, NoSongFaults()));
            && r.outcome == Done
            && r.player.config == PlayerConfig(35, UNMUTED, Paused, FAST)
            && r.emitted == [ToAll(StateChanged(Num(0))), ToAll(SongChanged(Text("fast"))),
                             ToAll(VolumeChanged(Num(35)))]
  {
    var p := Playback.NewPlayer().player;
    Device.RestoreWithoutCapWritesOnce(Device.ChangeSong(p.device, SLOW, FAST, None, None).device, FAST, []);
  }

  /**
    When only the position restore throws (at any call, or because the cap
    ran out), the new song is already recorded but no client is told.
   */
  lemma ChangeSongRestoreFailureIsSilent(p: Playback.Player, ls: LockState, current: string, next: string,
                                         volumeLock: VolumeLock, env: DeviceEnv)
    requires !ls.gateHeld
    requires Playback.PauseStepSucceeds(p, env.song)
    requires Playback.SwitchCommits(next, env.song)
    requires !Device.LoadLastSongTime(Playback.SavedDevice(p.device, current, env.song), next, env.song.cap,
                                      env.song.readbacks, env.song.restoreFault).ok
    ensures var r := Handle(p, ls, ChangeSong(current, next), volumeLock, env);
            && r.outcome == Failed && r.emitted == []
            && r.player.config == Playback.Switched(p.config, next, DefaultSongVolume(next).value)
  {
  }

  /**
    change-mute has no same-value short cut: repeating the current value
    still takes the gate, drives the device and broadcasts.
   */
  lemma ChangeMuteRepeats(p: Playback.Player, ls: LockState, volumeLock: VolumeLock)
    requires !ls.gateHeld
    ensures var r := Handle(p, ls, ChangeMute(p.config.muted), volumeLock, DeviceEnv(None, NoSongFaults()));
            && r.outcome == Done
            && r.player == p
            && |r.trace| == 1
            && r.emitted == [ToAll(MuteChanged(Num(p.config.muted)))]
  {
  }

  /**
    As wired, change-volume never changes anything: the coordinator has no
    withLock, the call throws and the error is logged.
   */
  lemma ChangeVolumeAsWiredFails(p: Playback.Player, ls: LockState, v: int, env: DeviceEnv)
    ensures var r := Handle(p, ls, ChangeVolume(v), WiredCoordinator, env);
            r.outcome == Failed && r.player == p && r.emitted == [] && r.trace == []
  {
  }

  /**
    Given a gate that offers withLock and is free, change-volume stores and
    broadcasts the value as sent, with no range check.
   */
  lemma ChangeVolumeThroughGate(p: Playback.Player, ls: LockState, v: int)
    requires !ls.gateHeld
    ensures var r := Handle(p, ls, ChangeVolume(v), NetworkGate, DeviceEnv(None, NoSongFaults()));
            && r.outcome == Done
            && r.player.config.serverVolume == v
            && r.trace == [Device.SetVolumeOption(v)]
            && r.emitted == [ToAll(VolumeChanged(Num(v)))]
  {
  }

  /**
    During an override the gate is free, so an ordinary client can still
    change the live player while readers keep seeing the snapshot.
   */
  lemma OverrideDoesNotBlockWriters(p: Playback.Player, ls: LockState, m: int, volumeLock: VolumeLock)
    requires Valid(ls) && ls.adminActive && !ls.gateHeld
    requires m != ls.savedUserState.value.muted
    ensures var r := Handle(p, ls, ChangeMute(m), volumeLock, DeviceEnv(None, NoSongFaults()));
            && r.outcome == Done
            && r.player.config.muted == m
            && Handle(r.player, r.lock, GetMute, volumeLock, DeviceEnv(None, NoSongFaults())).emitted
               == [ToSender(MuteChanged(Num(ls.savedUserState.value.muted)))]
            && Handle(r.player, r.lock, GetMute, volumeLock, DeviceEnv(None, NoSongFaults())).emitted
               != [ToSender(MuteChanged(Num(m)))]
  {
  }
}

=== FILE: locks.dfy ===
/**
  The lock layer: the network-wide gate, the admin override built on it
  (AdminExclusiveLockManager) and the LockCoordinator that composes them.

  The gate (NetworkLockManager) is not part of this model. The
  coordinator's doc comment documents only its boolean result: true when
  the operation ran, false when the lock could not be acquired. The rest is
  assumed here: the refusal is immediate, the gate is released on every
  exit path, and an error of the body propagates. Operations that suspend while holding the gate are modelled by
  the session module as separate begin and end events.
 */
module Locks {
  import opened MediaConfig

  datatype LockState = LockState(
    gateHeld: bool,                         // the gate is taken by an operation in flight
    adminActive: bool,                      // #isAdminOperationActive
    savedUserState: Option<PlayerConfig>)   // #savedUserState (None: null)

  /** Nothing held, no override, no snapshot. */
  const INITIAL_LOCK_STATE: LockState := LockState(false, false, None)

  /** The flag and the snapshot are set and cleared together. */
  predicate Valid(ls: LockState) {
    ls.adminActive <==> ls.savedUserState.Some?
  }

  /* ---------- The gate ---------- */

  datatype GateOutcome = Refused | Completed | Raised

  /** What withLock returned, and whether the gate is held once it has returned. */
  datatype GateRun = GateRun(outcome: GateOutcome, heldAfter: bool)

  /**
    withLock(body) for a body that does not suspend: refused when held,
    otherwise the gate is taken, the body runs, and the gate is released
    whether the body returned or threw.
   */
  function WithLock(gateHeld: bool, bodyThrows: bool): (r: GateRun)
    ensures r.outcome == Refused <==> gateHeld
    ensures r.outcome == Raised <==> !gateHeld && bodyThrows
    ensures !gateHeld ==> !r.heldAfter
    ensures gateHeld ==> r.heldAfter
  {
    if gateHeld then GateRun(Refused, true)
    else
      var outcome := if bodyThrows then Raised else Completed;
      GateRun(outcome, false)
  }

  /* ---------- The admin override ---------- */

  /**
    The two ways of reading `acquired` in withAdminOperation. The result
    documented for the coordinator is whether the body ran
    (AcquisitionResult). If
    instead it passed the body's own value through (CallbackValue), that
    value is `false` or undefined, both falsy.
   */
  datatype GateReading = AcquisitionResult | CallbackValue

  datatype AdminBegin = AdminBegin(lock: LockState, acquired: bool)

  /**
    The gated first half of withAdminOperation: if no override is active,
    snapshot the player's configuration and raise the flag. An override
    already active makes the body return false without touching anything.
   */
  function BeginAdminOperation(ls: LockState, current: PlayerConfig, reading: GateReading): (r: AdminBegin)
    ensures Valid(ls) ==> Valid(r.lock)
    ensures r.lock.gateHeld == ls.gateHeld
    ensures ls.gateHeld ==> r == AdminBegin(ls, false)
    ensures ls.adminActive ==> r.lock == ls
    ensures !ls.gateHeld && !ls.adminActive ==>
      r.lock.adminActive && r.lock.savedUserState == Some(current)
    ensures reading == AcquisitionResult ==> (r.acquired <==> !ls.gateHeld)
    ensures reading == CallbackValue ==> !r.acquired
  {
    if ls.gateHeld then AdminBegin(ls, false)
    else
      var after := if ls.adminActive then ls
                   else ls.(adminActive := true, savedUserState := Some(current));
      AdminBegin(after, reading == AcquisitionResult)
  }

  /**
    The `finally` half: the reset is itself gated, so flag and snapshot are
    cleared only when the gate is free at that moment; a refused reset is
    silent.
   */
  function EndAdminOperation(ls: LockState): (r: LockState)
    ensures Valid(ls) ==> Valid(r)
    ensures r.gateHeld == ls.gateHeld
    ensures ls.gateHeld ==> r == ls
    ensures !ls.gateHeld ==> !r.adminActive && r.savedUserState.None?
  {
    if ls.gateHeld then ls else ls.(adminActive := false, savedUserState := None)
  }

  /** What withAdminOperation returns: a boolean, or the callback's error. */
  datatype AdminOutcome = Returned(value: bool) | Threw

  datatype AdminRun = AdminRun(lock: LockState, callbackRan: bool, outcome: AdminOutcome)

  /**
    withAdminOperation(player, callback) when nothing else runs meanwhile:
    the callback runs outside the gate, between the two gated halves.
   */
  function WithAdminOperation(ls: LockState, current: PlayerConfig, reading: GateReading,
                              callbackOk: bool): (r: AdminRun)
    ensures Valid(ls) ==> Valid(r.lock)
    ensures r.lock.gateHeld == ls.gateHeld
    ensures ls.gateHeld ==> r == AdminRun(ls, false, Returned(false))
    ensures r.callbackRan <==> reading == AcquisitionResult && !ls.gateHeld
    ensures r.callbackRan ==> !r.lock.adminActive && r.lock.savedUserState.None?
    ensures r.callbackRan ==> (r.outcome == Returned(true) <==> callbackOk)
    ensures r.callbackRan && !callbackOk ==> r.outcome == Threw
    ensures !r.callbackRan ==> r.outcome == Returned(false)
  {
    var begin := BeginAdminOperation(ls, current, reading);
    if !begin.acquired then AdminRun(begin.lock, false, Returned(false))
    else
      var after := EndAdminOperation(begin.lock);
      AdminRun(after, true, if callbackOk then Returned(true) else Threw)
  }

  /**
    Under the documented reading, a second override started while one is active is
    not refused: its callback runs, and its reset ends the first override
    too.
   */
  lemma SecondOverrideIsNotRefused(ls: LockState, current: PlayerConfig)
    requires Valid(ls) && ls.adminActive && !ls.gateHeld
    ensures var r := WithAdminOperation(ls, current, AcquisitionResult, true);
            r.callbackRan && r.outcome == Returned(true) && !r.lock.adminActive
  {
  }

  /**
    Read with the callback's value passed through, withAdminOperation never
    runs its callback, and a first call leaves the override active for good
    with the snapshot it took.
   */
  lemma CallbackValueReadingStrandsOverride(ls: LockState, current: PlayerConfig, callbackOk: bool)
    requires Valid(ls) && !ls.gateHeld && !ls.adminActive
    ensures var r := WithAdminOperation(ls, current, CallbackValue, callbackOk);
            && !r.callbackRan && r.outcome == Returned(false)
            && r.lock.adminActive && r.lock.savedUserState == Some(current)
  {
  }

  /* ---------- The coordinator ---------- */

  /** Either the gate is taken or an override is active. */
  predicate IsLocked(ls: LockState) {
    ls.gateHeld || ls.adminActive
  }

  predicate IsAdminOperationActive(ls: LockState) {
    ls.adminActive
  }

  /** getSavedUserState: null whenever no override is active. */
  function GetSavedUserState(ls: LockState): (r: Option<PlayerConfig>)
    ensures Valid(ls) ==> (r.None? <==> !IsAdminOperationActive(ls))
  {
    ls.savedUserState
  }

  /**
    withUserLock: the gate's result, unchanged. An active override does not
    refuse it, and the gate is free again once a body it ran has ended.
   */
  function WithUserLock(ls: LockState, bodyThrows: bool): (r: GateRun)
    ensures r.outcome == Refused <==> ls.gateHeld
    ensures ls.adminActive && !ls.gateHeld ==> r.outcome != Refused
    ensures r.outcome != Refused ==> !r.heldAfter
  {
    WithLock(ls.gateHeld, bodyThrows)
  }

  /** withAdminLock: withAdminOperation's result, unchanged. */
  function WithAdminLock(ls: LockState, current: PlayerConfig, reading: GateReading,
                         callbackOk: bool): (r: AdminRun)
    ensures ls.gateHeld ==> r.outcome == Returned(false) && r.lock == ls
    ensures reading == AcquisitionResult && !ls.gateHeld ==>
      r.outcome == (if callbackOk then Returned(true) else Threw)
    ensures reading == CallbackValue ==> r.outcome == Returned(false)
    ensures Valid(ls) && reading == AcquisitionResult && !ls.gateHeld ==> !IsLocked(r.lock)
  {
    WithAdminOperation(ls, current, reading, callbackOk)
  }

  /**
    The configuration read-only handlers report: the live one when no
    override is active, otherwise the snapshot (None stands for a missing
    snapshot, which `?.` turns into undefined).
   */
  function ReadView(ls: LockState, live: PlayerConfig): (r: Option<PlayerConfig>)
    ensures !ls.adminActive ==> r == Some(live)
    ensures Valid(ls) && ls.adminActive ==> r.Some? && r == ls.savedUserState
  {
    if !IsAdminOperationActive(ls) then Some(live) else GetSavedUserState(ls)
  }

  /**
    While an override is active the read view is the snapshot taken at its
    start, whatever the live configuration has become since.
   */
  lemma ReadViewIsSnapshot(ls: LockState, atStart: PlayerConfig, reading: GateReading, liveNow: PlayerConfig)
    requires !ls.gateHeld && !ls.adminActive
    ensures var begun := BeginAdminOperation(ls, atStart, reading).lock;
            ReadView(begun, liveNow) == Some(atStart)
  {
  }
}

=== FILE: logging.dfy ===
/**
  The logger: an in-memory buffer of the most recent entries, the console
  line each entry is printed as, and the context record the module-level
  facade builds for every call. The clock is a parameter (the entry's
  timestamp string); the console itself is not modelled, only the line.
 */
module Logging {
  import opened MediaConfig

  /* ---------- Context records ---------- */

  /** A context value as `${v}` renders it: a string, or undefined. */
  datatype Val = Text(s: string) | Undefined

  function Render(v: Val): string {
    match v
    case Text(s) => s
    case Undefined => "undefined"
  }

  /** A plain object: its own keys in insertion order, with their values. */
  type Context = seq<(string, Val)>

  function Keys(ctx: Context): seq<string> {
    seq(|ctx|, i requires 0 <= i < |ctx| => ctx[i].0)
  }

  /** An object never holds a key twice. */
  predicate Distinct(ctx: Context) {
    forall i, j :: 0 <= i < j < |ctx| ==> ctx[i].0 != ctx[j].0
  }

  /** Property access; None: the key is absent. */
  function Lookup(ctx: Context, k: string): Option<Val>
    decreases |ctx|
  {
    if ctx == [] then None
    else if ctx[0].0 == k then Some(ctx[0].1)
    else Lookup(ctx[1..], k)
  }

  lemma {:induction false} LookupFindsKey(ctx: Context, k: string)
    decreases |ctx|
    ensures Lookup(ctx, k).Some? <==> k in Keys(ctx)
    ensures Distinct(ctx) ==>
      forall i :: 0 <= i < |ctx| && ctx[i].0 == k ==> Lookup(ctx, k) == Some(ctx[i].1)
  {
    if ctx != [] {
      LookupFindsKey(ctx[1..], k);
      assert Keys(ctx) == [ctx[0].0] + Keys(ctx[1..]);
      if Distinct(ctx) {
        forall i | 0 <= i < |ctx| && ctx[i].0 == k
          ensures Lookup(ctx, k) == Some(ctx[i].1)
        {
          if i > 0 {
            assert ctx[1..][i - 1] == ctx[i];
          }
        }
      }
    }
  }

  /**
    Assigning a property: an existing key keeps its position and takes the
    new value; a new key goes last.
   */
  function Assign(ctx: Context, k: string, v: Val): (r: Context)
    decreases |ctx|
    ensures forall j :: Lookup(r, j) == if j == k then Some(v) else Lookup(ctx, j)
    ensures Keys(r) == if k in Keys(ctx) then Keys(ctx) else Keys(ctx) + [k]
  {
    if ctx == [] then [(k, v)]
    else if ctx[0].0 == k then
      assert Keys([(k, v)] + ctx[1..]) == Keys(ctx) && Keys(ctx)[0] == k;
      [(k, v)] + ctx[1..]
    else
      var rest := Assign(ctx[1..], k, v);
      assert Keys(ctx) == [ctx[0].0] + Keys(ctx[1..]);
      assert Keys([ctx[0]] + rest) == [ctx[0].0] + Keys(rest);
      [ctx[0]] + rest
  }

  /** Assigning never makes a key appear twice. */
  lemma AssignKeepsDistinct(ctx: Context, k: string, v: Val)
    ensures Distinct(ctx) ==> Distinct(Assign(ctx, k, v))
  {
    var r := Assign(ctx, k, v);
    if Distinct(ctx) {
      forall i, j | 0 <= i < j < |r|
        ensures r[i].0 != r[j].0
      {
        assert Keys(r)[i] == r[i].0 && Keys(r)[j] == r[j].0;
        assert Keys(ctx)[i] == ctx[i].0;
        if j < |ctx| {
          assert Keys(ctx)[j] == ctx[j].0;
        }
      }
    }
  }

  /** The rest of an object after its first key: still distinct, and without that key. */
  lemma DistinctTail(ctx: Context)
    requires Distinct(ctx) && ctx != []
    ensures Distinct(ctx[1..])
    ensures Lookup(ctx[1..], ctx[0].0).None?
  {
    forall a, b | 0 <= a < b < |ctx[1..]|
      ensures ctx[1..][a].0 != ctx[1..][b].0
    {
      assert ctx[1..][a] == ctx[a + 1] && ctx[1..][b] == ctx[b + 1];
    }
    LookupFindsKey(ctx[1..], ctx[0].0);
  }

  /**
    Object spread `{...base, ...extra}`: the entries of `extra` assigned in
    order over `base`. The keys of `base` keep their places at the front; a
    key of `extra` reads its value from `extra`, any other key the base's.
   */
  function Merge(base: Context, extra: Context): (r: Context)
    decreases |extra|
    ensures |r| >= |base| && Keys(r)[..|base|] == Keys(base)
    ensures Distinct(base) ==> Distinct(r)
    ensures Distinct(extra) ==>
      forall j :: Lookup(r, j) == if Lookup(extra, j).Some? then Lookup(extra, j) else Lookup(base, j)
  {
    if extra == [] then base
    else
      var next := Assign(base, extra[0].0, extra[0].1);
      assert Keys(next)[..|base|] == Keys(base);
      AssignKeepsDistinct(base, extra[0].0, extra[0].1);
      if Distinct(extra) then
        DistinctTail(extra);
        Merge(next, extra[1..])
      else
        Merge(next, extra[1..])
  }

  /** `socket?.id`: undefined for a missing socket. */
  function SocketId(socket: Option<string>): Val {
    if socket.Some? then Text(socket.value) else Undefined
  }

  /**
    createContext(module, socket, extra): `module` and `socketId` first,
    then the spread of `extra` (the empty object when omitted).
   */
  function CreateContext(moduleName: string, socket: Option<string>, extra: Context): (r: Context)
    ensures |r| >= 2 && r[0].0 == "module" && r[1].0 == "socketId"
    ensures Distinct(r)
  {
    var base := [("module", Text(moduleName)), ("socketId", SocketId(socket))];
    assert Keys(base) == ["module", "socketId"];
    var r := Merge(base, extra);
    assert Keys(r)[0] == r[0].0 && Keys(r)[1] == r[1].0;
    r
  }

  /**
    What every key of the created context holds: a key of `extra` wins,
    including over `module` and `socketId`; those two hold the caller's
    module name and the socket's id otherwise; nothing else is present.
   */
  lemma CreateContextLookup(moduleName: string, socket: Option<string>, extra: Context, j: string)
    requires Distinct(extra)
    ensures Lookup(CreateContext(moduleName, socket, extra), j) ==
      if Lookup(extra, j).Some? then Lookup(extra, j)
      else if j == "module" then Some(Text(moduleName))
      else if j == "socketId" then Some(SocketId(socket))
      else None
  {
    var base := [("module", Text(moduleName)), ("socketId", SocketId(socket))];
    assert base[1..] == [("socketId", SocketId(socket))];
    assert Lookup(base[1..], j) == if j == "socketId" then Some(SocketId(socket)) else None;
    assert Lookup(base, j) == if j == "module" then Some(Text(moduleName)) else Lookup(base[1..], j);
  }

  /** A call with no socket logs socketId=undefined unless `extra` sets it. */
  lemma NoSocketLogsUndefined(moduleName: string, extra: Context)
    requires Distinct(extra) && Lookup(extra, "socketId").None?
    ensures Lookup(CreateContext(moduleName, None, extra), "socketId") == Some(Undefined)
  {
    CreateContextLookup(moduleName, None, extra, "socketId");
  }

  /* ---------- The console line ---------- */

  function Join(parts: seq<string>): string
    decreases |parts|
  {
    if |parts| == 0 then ""
    else if |parts| == 1 then parts[0]
    else parts[0] + "," + Join(parts[1..])
  }

  /** Splitting at every comma; the inverse of Join for comma-free parts. */
  function Split(s: string): (parts: seq<string>)
    decreases |s|
    ensures |parts| >= 1
  {
    if s == [] then [""]
    else
      var rest := Split(s[1..]);
      if s[0] == ',' then [""] + rest else [[s[0]] + rest[0]] + rest[1..]
  }

  predicate NoComma(s: string) {
    forall i :: 0 <= i < |s| ==> s[i] != ','
  }

  lemma {:induction false} SplitAfter(x: string, y: string)
    requires NoComma(x)
    decreases |x|
    ensures Split(x + "," + y) == [x] + Split(y)
  {
    if x == [] {
      assert x + "," + y == [','] + y;
      assert (x + "," + y)[1..] == y;
    } else {
      assert (x + "," + y)[1..] == x[1..] + "," + y;
      SplitAfter(x[1..], y);
      assert [x[0]] + x[1..] == x;
    }
  }

  lemma {:induction false} SplitNoComma(x: string)
    requires NoComma(x)
    decreases |x|
    ensures Split(x) == [x]
  {
    if x != [] {
      SplitNoComma(x[1..]);
      assert [x[0]] + x[1..] == x;
    }
  }

  lemma {:induction false} SplitJoin(parts: seq<string>)
    requires |parts| >= 1
    requires forall i :: 0 <= i < |parts| ==> NoComma(parts[i])
    decreases |parts|
    ensures Split(Join(parts)) == parts
  {
    if |parts| == 1 {
      SplitNoComma(parts[0]);
    } else {
      SplitAfter(parts[0], Join(parts[1..]));
      SplitJoin(parts[1..]);
      assert [parts[0]] + parts[1..] == parts;
    }
  }

  function Pairs(ctx: Context): seq<string> {
    seq(|ctx|, i requires 0 <= i < |ctx| => ctx[i].0 + "=" + Render(ctx[i].1))
  }

  /** The context suffix: empty for an object without keys, otherwise `[k=v,...]`. */
  function ContextString(ctx: Context): (r: string)
    ensures r == [] <==> |ctx| == 0
    ensures |ctx| > 0 ==> |r| >= 2 && r[0] == '[' && r[|r| - 1] == ']'
  {
    if |ctx| == 0 then "" else "[" + Join(Pairs(ctx)) + "]"
  }

  /**
    When no key or value contains a comma, the bracketed text splits back
    into exactly the `k=v` pairs, one per key, in key order.
   */
  lemma ContextStringSplitsIntoPairs(ctx: Context)
    requires |ctx| > 0
    requires forall i :: 0 <= i < |ctx| ==> NoComma(ctx[i].0) && NoComma(Render(ctx[i].1))
    ensures var r := ContextString(ctx);
            Split(r[1..|r| - 1]) == Pairs(ctx)
  {
    var r := ContextString(ctx);
    assert r[1..|r| - 1] == Join(Pairs(ctx));
    forall i | 0 <= i < |Pairs(ctx)|
      ensures NoComma(Pairs(ctx)[i])
    {
      var p := ctx[i].0 + "=" + Render(ctx[i].1);
      assert Pairs(ctx)[i] == p;
      forall c | 0 <= c < |p|
        ensures p[c] != ','
      {
        if c < |ctx[i].0| {
          assert p[c] == ctx[i].0[c];
        } else if c > |ctx[i].0| {
          assert p[c] == Render(ctx[i].1)[c - |ctx[i].0| - 1];
        }
      }
    }
    SplitJoin(Pairs(ctx));
  }

  function UpperChar(c: char): char {
    if 'a' <= c <= 'z' then (c as int - 32) as char else c
  }

  /** toUpperCase on ASCII text. */
  function Upper(s: string): (r: string)
    ensures |r| == |s|
    ensures forall i :: 0 <= i < |r| ==> !('a' <= r[i] <= 'z')
    ensures forall i :: 0 <= i < |s| && !('a' <= s[i] <= 'z') ==> r[i] == s[i]
    ensures forall i :: 0 <= i < |s| && 'a' <= s[i] <= 'z' ==> 'A' <= r[i] <= 'Z'
    ensures forall i :: 0 <= i < |s| && 'a' <= s[i] <= 'z' ==> r[i] as int == s[i] as int - 32
  {
    seq(|s|, i requires 0 <= i < |s| => UpperChar(s[i]))
  }

  lemma UpperIdempotent(s: string)
    ensures Upper(Upper(s)) == Upper(s)
  {
  }

  /** `[timestamp][LEVEL] message context`. */
  function LogLine(timestamp: string, level: string, message: string, ctx: Context): (r: string)
    ensures var tag := "[" + Upper(level) + "]";
            var at := |timestamp| + 2;
            |r| >= at + |tag| && r[at..at + |tag|] == tag
    ensures |r| >= |ContextString(ctx)| && r[|r| - |ContextString(ctx)|..] == ContextString(ctx)
  {
    var stamp := "[" + timestamp + "]";
    var tag := "[" + Upper(level) + "]";
    var tail := " " + message + " " + ContextString(ctx);
    assert (stamp + tag + tail)[|stamp|..|stamp| + |tag|] == tag;
    stamp + tag + tail
  }

  /* ---------- The buffer ---------- */

  const MAX_LOGS: nat := 1000

  datatype Entry = Entry(timestamp: string, level: string, message: string, context: Context)

  datatype Logger = Logger(logs: seq<Entry>)

  function NewLogger(): (l: Logger)
    ensures |l.logs| == 0
  {
    Logger([])
  }

  /** The last `n` elements of `s`, or all of it when shorter. */
  function Newest<T>(s: seq<T>, n: nat): (r: seq<T>)
    ensures |r| <= n && |r| <= |s|
  {
    if |s| <= n then s else s[|s| - n..]
  }

  /** push, then shift once if the buffer is over its capacity. */
  function Push(logs: seq<Entry>, e: Entry): (r: seq<Entry>)
    ensures |logs| <= MAX_LOGS ==> |r| <= MAX_LOGS && r == Newest(logs + [e], MAX_LOGS)
    ensures |r| > 0 && r[|r| - 1] == e
    ensures |logs| < MAX_LOGS ==> r[..|logs|] == logs
  {
    var pushed := logs + [e];
    if |pushed| > MAX_LOGS then pushed[1..] else pushed
  }

  /** A sequence of log calls, oldest first. */
  function PushAll(logs: seq<Entry>, entries: seq<Entry>): seq<Entry>
    decreases |entries|
  {
    if entries == [] then logs else PushAll(Push(logs, entries[0]), entries[1..])
  }

  lemma NewestOfNewest<T>(s: seq<T>, t: seq<T>, n: nat)
    ensures Newest(Newest(s, n) + t, n) == Newest(s + t, n)
  {
    if |s| > n {
      var d := |s| - n;
      var u := s[d..] + t;
      assert Newest(s, n) == s[d..];
      if |t| == 0 {
        assert s + t == s;
        assert u == s[d..];
      } else {
        var a := Newest(u, n);
        var b := Newest(s + t, n);
        assert a == u[|t|..];
        assert b == (s + t)[d + |t|..];
        forall k | 0 <= k < n
          ensures a[k] == b[k]
        {
          assert a[k] == u[|t| + k];
          assert b[k] == (s + t)[d + |t| + k];
          if |t| + k < n {
            assert u[|t| + k] == s[d + |t| + k];
          } else {
            assert u[|t| + k] == t[|t| + k - n];
          }
        }
      }
    }
  }

  /**
    However many entries are logged, the buffer holds the newest
    MAX_LOGS of everything logged, in the order they were logged.
   */
  lemma {:induction false} BufferKeepsNewest(logs: seq<Entry>, entries: seq<Entry>)
    requires |logs| <= MAX_LOGS
    decreases |entries|
    ensures PushAll(logs, entries) == Newest(logs + entries, MAX_LOGS)
  {
    if entries != [] {
      var next := Push(logs, entries[0]);
      BufferKeepsNewest(next, entries[1..]);
      NewestOfNewest(logs + [entries[0]], entries[1..], MAX_LOGS);
      assert logs + [entries[0]] + entries[1..] == logs + entries;
    }
  }

  /* ---------- Levels and the facade ---------- */

  datatype Level = Info | Warn | Error | Debug {
    function Name(): (n: string)
      ensures Upper(n) == (match this
                           case Info => "INFO"
                           case Warn => "WARN"
                           case Error => "ERROR"
                           case Debug => "DEBUG")
    {
      match this
      case Info => "info"
      case Warn => "warn"
      case Error => "error"
      case Debug => "debug"
    }
  }

  datatype Logged = Logged(logger: Logger, line: string)

  /**
    log(level, message, context): one entry appended, oldest dropped on
    overflow, and the console line. A missing context is the empty object.
   */
  function Log(l: Logger, timestamp: string, level: string, message: string,
               context: Option<Context>): (r: Logged)
    ensures var ctx := if context.Some? then context.value else [];
            && |r.logger.logs| > 0
            && r.logger.logs[|r.logger.logs| - 1] == Entry(timestamp, level, message, ctx)
            && r.line == LogLine(timestamp, level, message, ctx)
    ensures |l.logs| <= MAX_LOGS ==> |r.logger.logs| <= MAX_LOGS
    ensures |l.logs| <= MAX_LOGS ==>
      var ctx := if context.Some? then context.value else [];
      r.logger.logs == Newest(l.logs + [Entry(timestamp, level, message, ctx)], MAX_LOGS)
  {
    var ctx := if context.Some? then context.value else [];
    var e := Entry(timestamp, level, message, ctx);
    Logged(Logger(Push(l.logs, e)), LogLine(timestamp, level, message, ctx))
  }

  /** info, warn, error and debug: log with the level's own name. */
  function LogAt(l: Logger, timestamp: string, level: Level, message: string,
                 context: Option<Context>): (r: Logged)
    ensures |r.logger.logs| > 0 && r.logger.logs[|r.logger.logs| - 1].level == level.Name()
    ensures var ctx := if context.Some? then context.value else [];
            && r.logger.logs[|r.logger.logs| - 1] == Entry(timestamp, level.Name(), message, ctx)
            && r.line == LogLine(timestamp, level.Name(), message, ctx)
  {
    Log(l, timestamp, level.Name(), message, context)
  }

  /**
    The facade log.<level>(module, socket, message, extra): the entry's
    context is createContext's, so it is never empty and every facade line
    ends with a bracketed context.
   */
  function FacadeLog(l: Logger, timestamp: string, level: Level, moduleName: string,
                     socket: Option<string>, message: string, extra: Context): (r: Logged)
    ensures |r.logger.logs| > 0
    ensures var last := r.logger.logs[|r.logger.logs| - 1];
            && last.level == level.Name()
            && last.context == CreateContext(moduleName, socket, extra)
            && |last.context| >= 2
    ensures |r.line| > 0 && r.line[|r.line| - 1] == ']'
  {
    var ctx := CreateContext(moduleName, socket, extra);
    LineEndsInBracket(timestamp, level.Name(), message, ctx);
    LogAt(l, timestamp, level, message, Some(ctx))
  }

  /** A line logged with a non-empty context ends with the context's closing bracket. */
  lemma LineEndsInBracket(timestamp: string, level: string, message: string, ctx: Context)
    requires |ctx| > 0
    ensures var line := LogLine(timestamp, level, message, ctx);
            |line| > 0 && line[|line| - 1] == ']'
  {
    var line := LogLine(timestamp, level, message, ctx);
    var suffix := ContextString(ctx);
    assert line[|line| - |suffix|..] == suffix;
    assert line[|line| - 1] == suffix[|suffix| - 1];
  }
}

=== FILE: media_config.dfy ===
/**
  Shared constants of the media server and the player configuration record.

  Player states and mute states travel to and from clients as the numbers
  0 and 1; songs are the strings "slow" and "fast". Client payloads are not
  validated, so any other number or string can reach the server, and the
  model keeps those as plain `int` and `string` values.
 */
module MediaConfig {

  datatype Option<+T> = None | Some(value: T)

  /** PLAYER_STATE.PAUSED / PLAYER_STATE.PLAYING as sent on the wire */
  const PAUSED_CODE: int := 0
  const PLAYING_CODE: int := 1

  /** MUTE_STATE.UNMUTED / MUTE_STATE.MUTED */
  const UNMUTED: int := 0
  const MUTED: int := 1

  /** SONG_TYPE.SLOW / SONG_TYPE.FAST */
  const SLOW: string := "slow"
  const FAST: string := "fast"

  /** The player only ever stores one of the two states. */
  datatype PlayState = Paused | Playing {
    /** The number clients see for this state. */
    function Code(): (c: int)
      ensures c == PAUSED_CODE <==> this == Paused
      ensures c == PLAYING_CODE <==> this == Playing
    {
      if Paused? then PAUSED_CODE else PLAYING_CODE
    }
  }

  /**
    DEFAULT_SONG_VOLUMES looked up by a song name: only the two known songs
    have an entry, and other names read as undefined (None). Names every
    JavaScript object inherits are treated the same way here.
   */
  function DefaultSongVolume(song: string): (v: Option<int>)
    ensures v.Some? <==> song == SLOW || song == FAST
    ensures v.Some? ==> 0 <= v.value <= 100
  {
    if song == SLOW then Some(50)
    else if song == FAST then Some(35)
    else None
  }

  /**
    The Player's state object. `muted` keeps whatever value the client sent
    (the player only compares it with MUTED); `serverVolume` is not range
    checked either.
   */
  datatype PlayerConfig = PlayerConfig(
    serverVolume: int,
    muted: int,
    state: PlayState,
    currentSong: string)

  /** INITIAL_PLAYER_CONFIG */
  const INITIAL_PLAYER_CONFIG: PlayerConfig :=
    PlayerConfig(50, UNMUTED, Paused, SLOW)

  /** The initial configuration is the slow song's default volume, unmuted and paused. */
  lemma InitialConfigMatchesSlowDefault()
    ensures DefaultSongVolume(INITIAL_PLAYER_CONFIG.currentSong) == Some(INITIAL_PLAYER_CONFIG.serverVolume)
    ensures INITIAL_PLAYER_CONFIG.state.Code() == PAUSED_CODE
    ensures INITIAL_PLAYER_CONFIG.muted != MUTED
  {
  }
}

=== FILE: playback.dfy ===
/**
  The Player: the authoritative playback state and the transitions that
  drive the device.

  Every transition returns the new player, the device calls it made and
  whether it returned normally (`ok == false`: it threw, and the error
  reaches the caller). play, pause and changeSong write the new state only
  after the device call it depends on has returned; setVolume and setMute
  write their field first and call the device afterwards.
 */
module Playback {
  import opened MediaConfig
  import opened Device

  datatype Player = Player(config: PlayerConfig, device: DeviceState)

  datatype Result = Result(player: Player, trace: seq<Command>, ok: bool)

  /** What the device does during one changeSong call. */
  datatype SongEnv = SongEnv(
    pauseFault: Option<nat>,             // fault inside the fade-out, if the player was playing
    playbackTime: Option<Seconds>,       // what reading the current time returns
    loadFault: Option<nat>,              // fault inside the file load
    volumeFault: Option<nat>,            // fault inside the new song's volume write
    cap: Option<nat>,                    // MAX_PROPERTY_SET_ATTEMPTS (undefined as shipped)
    readbacks: seq<Option<Seconds>>,     // positions read back by the restore loop
    restoreFault: Option<nat>)           // fault inside the restore loop

  /**
    The constructor: a copy of INITIAL_PLAYER_CONFIG, a fresh device, and the
    device volume set to the initial volume.
   */
  function NewPlayer(): (r: Result)
    ensures r.ok
    ensures r.player.config.serverVolume == 50 && r.player.config.muted == UNMUTED
    ensures r.player.config.state == Paused && r.player.config.currentSong == SLOW
    ensures r.player.device.songTimes == map[SLOW := 0.0, FAST := 0.0]
    ensures |r.trace| > 0 && r.trace[|r.trace| - 1] == SetVolumeOption(r.player.config.serverVolume)
  {
    var init := Initialize();
    Result(Player(INITIAL_PLAYER_CONFIG, init.device),
           init.trace + [SetVolumeOption(INITIAL_PLAYER_CONFIG.serverVolume)], true)
  }

  /* ---------- Getters ---------- */

  function GetVolume(p: Player): int { p.config.serverVolume }
  function GetState(p: Player): PlayState { p.config.state }
  predicate IsPlaying(p: Player) { p.config.state.Code() == PLAYING_CODE }
  predicate IsPaused(p: Player) { p.config.state.Code() == PAUSED_CODE }
  predicate IsMuted(p: Player) { p.config.muted == MUTED }

  /**
    getVolume and getState read back what the transitions stored: the last
    volume set (mute does not touch it), and Playing or Paused after a play
    or pause that returned, the old state after one that threw.
   */
  lemma VolumeAndStateGetters(p: Player, w: int, m: int, f: Option<nat>)
    ensures GetVolume(SetVolume(p, w, f).player) == w
    ensures GetVolume(SetMute(p, m, f).player) == GetVolume(p)
    ensures GetVolume(Play(p, f).player) == GetVolume(p) && GetVolume(Pause(p, f).player) == GetVolume(p)
    ensures GetState(Play(p, f).player) == (if Play(p, f).ok then Playing else GetState(p))
    ensures GetState(Pause(p, f).player) == (if Pause(p, f).ok then Paused else GetState(p))
    ensures GetState(SetVolume(p, w, f).player) == GetState(p) && GetState(SetMute(p, m, f).player) == GetState(p)
  {
  }

  /**
    isMuted is true exactly when the last mute value stored was MUTED; any
    other value, 0 or not, reads as unmuted, and volume changes keep it.
   */
  lemma IsMutedReadsLastMute(p: Player, w: int, m: int, f: Option<nat>)
    ensures IsMuted(SetMute(p, m, f).player) <==> m == MUTED
    ensures IsMuted(SetVolume(p, w, f).player) <==> IsMuted(p)
    ensures IsMuted(Play(p, f).player) <==> IsMuted(p)
  {
  }

  /** The state is always exactly one of playing and paused. */
  lemma PlayingXorPaused(p: Player)
    ensures IsPlaying(p) != IsPaused(p)
    ensures IsPlaying(p) <==> GetState(p) == Playing
  {
  }

  /* ---------- Volume and mute ---------- */

  /**
    setVolume(v): store v and send v to the device, even while muted and
    whatever its range. The store happens first, so it stays when the
    device call throws.
   */
  function SetVolume(p: Player, volume: int, fault: Option<nat>): (r: Result)
    ensures r.player.config.serverVolume == volume
    ensures r.player.config.muted == p.config.muted && r.player.config.state == p.config.state
    ensures r.player.config.currentSong == p.config.currentSong && r.player.device == p.device
    ensures r.trace == [SetVolumeOption(volume)]
    ensures r.ok <==> !Hits(fault, 1)
  {
    var run := Device.SetVolume(Some(volume), fault);
    Result(p.(config := p.config.(serverVolume := volume)), run.trace, run.ok)
  }

  /**
    setMute(m): store m; the device gets 0 when m is MUTED and the stored
    volume for any other value. The stored volume is never touched.
   */
  function SetMute(p: Player, muted: int, fault: Option<nat>): (r: Result)
    ensures r.player.config.muted == muted
    ensures r.player.config.serverVolume == p.config.serverVolume
    ensures r.player.config.state == p.config.state && r.player.config.currentSong == p.config.currentSong
    ensures r.player.device == p.device
    ensures muted == MUTED ==> r.trace == [SetVolumeOption(0)]
    ensures muted != MUTED ==> r.trace == [SetVolumeOption(p.config.serverVolume)]
    ensures r.ok <==> !Hits(fault, 1)
  {
    var deviceVolume := if muted == MUTED then 0 else p.config.serverVolume;
    var run := Device.SetVolume(Some(deviceVolume), fault);
    Result(p.(config := p.config.(muted := muted)), run.trace, run.ok)
  }

  /**
    Mute, then a volume change while muted, then unmute: the volume change
    reaches the device at once (so a muted player becomes audible), and
    unmuting sends the new volume.
   */
  lemma MuteSetVolumeUnmute(p: Player, w: int, f1: Option<nat>, f2: Option<nat>, f3: Option<nat>)
    ensures var p1 := SetMute(p, MUTED, f1).player;
            var r2 := SetVolume(p1, w, f2);
            var r3 := SetMute(r2.player, UNMUTED, f3);
            && IsMuted(r2.player)
            && r2.trace == [SetVolumeOption(w)]
            && r3.trace == [SetVolumeOption(w)]
            && r3.player.config.serverVolume == w
            && !IsMuted(r3.player)
  {
  }

  /** Mute then unmute sends the volume stored before muting back to the device. */
  lemma MuteUnmuteRestoresVolume(p: Player, f1: Option<nat>, f2: Option<nat>)
    ensures var r1 := SetMute(p, MUTED, f1);
            var r2 := SetMute(r1.player, UNMUTED, f2);
            && r1.trace == [SetVolumeOption(0)]
            && r2.trace == [SetVolumeOption(p.config.serverVolume)]
            && r2.player.config == p.config.(muted := UNMUTED)
  {
  }

  /* ---------- Play and pause ---------- */

  /**
    play(): fade in, then record Playing. If the device throws, nothing is
    recorded and the error propagates. There is no check that the player is
    already playing.
   */
  function Play(p: Player, fault: Option<nat>): (r: Result)
    ensures r.ok <==> !Hits(fault, 34)
    ensures r.ok ==> r.player == p.(config := p.config.(state := Playing))
    ensures !r.ok ==> r.player == p
    ensures r.trace == Resume(fault).trace
  {
    var run := Resume(fault);
    if run.ok then Result(p.(config := p.config.(state := Playing)), run.trace, true)
    else Result(p, run.trace, false)
  }

  /** pause(): fade out and pause the device, then record Paused; nothing is recorded on a throw. */
  function Pause(p: Player, fault: Option<nat>): (r: Result)
    ensures r.ok <==> !Hits(fault, 34)
    ensures r.ok ==> r.player == p.(config := p.config.(state := Paused))
    ensures !r.ok ==> r.player == p
    ensures r.trace == Device.Pause(fault).trace
  {
    var run := Device.Pause(fault);
    if run.ok then Result(p.(config := p.config.(state := Paused)), run.trace, true)
    else Result(p, run.trace, false)
  }

  /**
    When only the final volume restore of the fade-out throws, the device is
    already paused but the player still records its earlier state.
   */
  lemma PauseFailingAtRestoreLeavesStateStale(p: Player)
    ensures SetPause(true) in Pause(p, Some(33)).trace
    ensures !Pause(p, Some(33)).ok && Pause(p, Some(33)).player == p
  {
  }

  /* ---------- Song change ---------- */

  /** The configuration a completed song switch records. */
  function Switched(c: PlayerConfig, newSong: string, volume: int): PlayerConfig {
    PlayerConfig(volume, c.muted, Paused, newSong)
  }

  /** Did the fade-out (run only when playing) return normally? */
  predicate PauseStepSucceeds(p: Player, env: SongEnv) {
    p.config.state == Paused || Device.Pause(env.pauseFault).ok
  }

  /** Both known songs have a saved position (true from construction on). */
  predicate KnowsBothSongs(d: DeviceState) {
    SLOW in d.songTimes && FAST in d.songTimes
  }

  /** Every position write restores the new song's saved time. */
  predicate WritesOnlySavedTime(trace: seq<Command>, d: DeviceState, song: string) {
    forall i :: 0 <= i < |trace| && trace[i].SetPlaybackTime? ==>
      song in d.songTimes && trace[i].time == d.songTimes[song]
  }

  /**
    The switch gets as far as recording the new song: the load returns, the
    new song has a default volume, and setting it returns.
   */
  predicate SwitchCommits(newSong: string, env: SongEnv) {
    !Hits(env.loadFault, 1) && DefaultSongVolume(newSong).Some? && !Hits(env.volumeFault, 1)
  }

  /** The position table once the current time has been saved under `currentSong`. */
  function SavedDevice(d: DeviceState, currentSong: string, env: SongEnv): DeviceState {
    DeviceState(d.songTimes[currentSong := SavedTime(env.playbackTime)])
  }

  /**
    changeSong after the fade-out: save the position and load the new file,
    set the new song's default volume on the device, record the switch, then
    restore the new song's saved position. A throw before the record leaves
    the configuration as it was; a throw from the restore comes after it.
   */
  function SwitchTrack(p: Player, currentSong: string, newSong: string, env: SongEnv): (r: Result)
    ensures r.player.config == p.config
         || (DefaultSongVolume(newSong).Some?
             && r.player.config == Switched(p.config, newSong, DefaultSongVolume(newSong).value))
    ensures r.ok ==>
      DefaultSongVolume(newSong).Some? && r.player.config == Switched(p.config, newSong, DefaultSongVolume(newSong).value)
    ensures SetPause(true) !in r.trace
    ensures PositionWrites(r.trace) > 0 ==>
      DefaultSongVolume(newSong).Some? && r.player.config == Switched(p.config, newSong, DefaultSongVolume(newSong).value)
    ensures PositionWrites(r.trace) == 0 && KnowsBothSongs(p.device) ==> r.player.config == p.config
    ensures r.player.device.songTimes == p.device.songTimes[currentSong := SavedTime(env.playbackTime)]
    ensures WritesOnlySavedTime(r.trace, r.player.device, newSong)
    ensures SwitchCommits(newSong, env) ==>
      r.player.config == Switched(p.config, newSong, DefaultSongVolume(newSong).value)
    ensures !SwitchCommits(newSong, env) ==> r.player.config == p.config && PositionWrites(r.trace) == 0
    ensures r.ok <==> SwitchCommits(newSong, env)
                      && LoadLastSongTime(SavedDevice(p.device, currentSong, env), newSong, env.cap,
                                          env.readbacks, env.restoreFault).ok
  {
    var load := LoadNewSong(p.device, currentSong, newSong, env);
    if !load.ok then
      Result(p.(device := load.device), load.trace, false)
    else
      var switched := Player(Switched(p.config, newSong, DefaultSongVolume(newSong).value), load.device);
      var restore := LoadLastSongTime(load.device, newSong, env.cap, env.readbacks, env.restoreFault);
      CountAppend(load.trace, restore.trace, IsPositionWrite);
      if newSong in load.device.songTimes then
        RestoreWritesSavedTime(load.trace, restore.trace, load.device, newSong);
        Result(switched, load.trace + restore.trace, restore.ok)
      else
        Result(switched, load.trace + restore.trace, restore.ok)
  }

  /**
    The part of the switch before anything is recorded: save the position,
    load the new file, set the new song's default volume. It returns
    normally exactly when the switch commits, and never writes the position
    or pauses.
   */
  function LoadNewSong(d: DeviceState, currentSong: string, newSong: string, env: SongEnv): (r: Step)
    ensures r.device == SavedDevice(d, currentSong, env)
    ensures r.ok <==> SwitchCommits(newSong, env)
    ensures forall i :: 0 <= i < |r.trace| ==> !r.trace[i].SetPlaybackTime?
    ensures PositionWrites(r.trace) == 0
    ensures SetPause(true) !in r.trace
  {
    var switch := Device.ChangeSong(d, currentSong, newSong, env.playbackTime, env.loadFault);
    assert switch.device == SavedDevice(d, currentSong, env);
    if !switch.ok then
      NoPositionWrite(switch.trace);
      Step(switch.device, switch.trace, false)
    else
      var volume := Device.SetVolume(DefaultSongVolume(newSong), env.volumeFault);
      var upToVolume := switch.trace + volume.trace;
      NoPositionWrite(upToVolume);
      Step(switch.device, upToVolume, volume.ok)
  }

  /** The fade-out changeSong starts with, run only when the player is playing. */
  function FadeOutIfPlaying(p: Player, env: SongEnv): (r: Run)
    ensures r.ok <==> PauseStepSucceeds(p, env)
    ensures p.config.state == Paused ==> r.trace == []
    ensures p.config.state == Playing ==> |r.trace| > 0 && r.trace[0] == ReadVolume
    ensures forall i :: 0 <= i < |r.trace| ==> !r.trace[i].SetPlaybackTime?
    ensures PositionWrites(r.trace) == 0
  {
    var pause := if p.config.state == Playing then Device.Pause(env.pauseFault) else Run([], true);
    NoPositionWrite(pause.trace);
    pause
  }

  /**
    changeSong(currentSong, newSong): fade out if playing, then switch. A
    fade-out that throws changes nothing; otherwise the current time is
    saved under `currentSong` whatever happens next.
   */
  function ChangeSong(p: Player, currentSong: string, newSong: string, env: SongEnv): (r: Result)
    ensures r.player.config.muted == p.config.muted
    ensures r.player.config == p.config
         || (DefaultSongVolume(newSong).Some?
             && r.player.config == Switched(p.config, newSong, DefaultSongVolume(newSong).value))
    ensures r.ok ==>
      DefaultSongVolume(newSong).Some? && r.player.config == Switched(p.config, newSong, DefaultSongVolume(newSong).value)
    ensures p.config.state == Paused ==> SetPause(true) !in r.trace
    ensures p.config.state == Playing ==> |r.trace| > 0 && r.trace[0] == ReadVolume
    ensures PositionWrites(r.trace) > 0 ==>
      DefaultSongVolume(newSong).Some? && r.player.config == Switched(p.config, newSong, DefaultSongVolume(newSong).value)
    ensures PositionWrites(r.trace) == 0 && KnowsBothSongs(p.device) ==> r.player.config == p.config
    ensures !PauseStepSucceeds(p, env) ==> r.player == p && !r.ok && PositionWrites(r.trace) == 0
    ensures PauseStepSucceeds(p, env) ==>
      r.player.device.songTimes == p.device.songTimes[currentSong := SavedTime(env.playbackTime)]
    ensures WritesOnlySavedTime(r.trace, r.player.device, newSong)
    ensures PauseStepSucceeds(p, env) && SwitchCommits(newSong, env) ==>
      r.player.config == Switched(p.config, newSong, DefaultSongVolume(newSong).value)
    ensures !(PauseStepSucceeds(p, env) && SwitchCommits(newSong, env)) ==>
      r.player.config == p.config && PositionWrites(r.trace) == 0
    ensures r.ok <==> PauseStepSucceeds(p, env) && SwitchCommits(newSong, env)
                      && LoadLastSongTime(SavedDevice(p.device, currentSong, env), newSong, env.cap,
                                          env.readbacks, env.restoreFault).ok
  {
    var pause := FadeOutIfPlaying(p, env);
    if !pause.ok then
      Result(p, pause.trace, false)
    else
      var rest := SwitchTrack(p, currentSong, newSong, env);
      CountAppend(pause.trace, rest.trace, IsPositionWrite);
      WritesOnlySavedTimeAfter(pause.trace, rest.trace, rest.player.device, newSong);
      Result(rest.player, pause.trace + rest.trace, rest.ok)
  }

  /** Calls without position writes in front of a trace keep its position writes valid. */
  lemma WritesOnlySavedTimeAfter(before: seq<Command>, rest: seq<Command>, d: DeviceState, song: string)
    requires forall i :: 0 <= i < |before| ==> !before[i].SetPlaybackTime?
    requires WritesOnlySavedTime(rest, d, song)
    ensures WritesOnlySavedTime(before + rest, d, song)
  {
    forall i | 0 <= i < |before + rest| && (before + rest)[i].SetPlaybackTime?
      ensures song in d.songTimes && (before + rest)[i].time == d.songTimes[song]
    {
      assert i >= |before|;
      assert (before + rest)[i] == rest[i - |before|];
    }
  }

  /** Calls without position writes, then a restore loop of `song`. */
  lemma RestoreWritesSavedTime(before: seq<Command>, restore: seq<Command>, d: DeviceState, song: string)
    requires song in d.songTimes
    requires forall i :: 0 <= i < |before| ==> !before[i].SetPlaybackTime?
    requires forall c :: c in restore ==> c == SetPlaybackTime(d.songTimes[song]) || c == ReadPlaybackTime
    ensures WritesOnlySavedTime(before + restore, d, song)
  {
    forall i | 0 <= i < |before + restore| && (before + restore)[i].SetPlaybackTime?
      ensures (before + restore)[i].time == d.songTimes[song]
    {
      assert i >= |before|;
      assert (before + restore)[i] == restore[i - |before|];
      assert restore[i - |before|] in restore;
    }
  }

  /** Device calls made before the restore loop never write the position. */
  lemma NoPositionWrite(trace: seq<Command>)
    requires forall i :: 0 <= i < |trace| ==> !trace[i].SetPlaybackTime?
    ensures PositionWrites(trace) == 0
  {
    CountNone(trace, IsPositionWrite);
  }

  /**
    A successful switch to another song sends that song's default volume to
    the device although the player stays muted: the mute is bypassed.
   */
  lemma ChangeSongBypassesMute(p: Player, currentSong: string, newSong: string, env: SongEnv)
    requires IsMuted(p)
    requires ChangeSong(p, currentSong, newSong, env).ok
    ensures var r := ChangeSong(p, currentSong, newSong, env);
            && IsMuted(r.player)
            && DefaultSongVolume(newSong).Some?
            && SetVolumeOption(DefaultSongVolume(newSong).value) in r.trace
            && DefaultSongVolume(newSong).value != 0
  {
    var r := ChangeSong(p, currentSong, newSong, env);
    var pause := if p.config.state == Playing then Device.Pause(env.pauseFault) else Run([], true);
    var switch := Device.ChangeSong(p.device, currentSong, newSong, env.playbackTime, env.loadFault);
    var volume := Device.SetVolume(DefaultSongVolume(newSong), env.volumeFault);
    assert volume.trace == [SetVolumeOption(DefaultSongVolume(newSong).value)];
    assert r.trace[|pause.trace| + |switch.trace|] == SetVolumeOption(DefaultSongVolume(newSong).value);
  }

  /**
    The position is saved under the song name the client passed as current,
    which need not be the song actually playing; every other saved position
    is kept.
   */
  lemma ChangeSongSavesUnderClaimedSong(p: Player, currentSong: string, newSong: string, env: SongEnv)
    requires PauseStepSucceeds(p, env)
    ensures var d := ChangeSong(p, currentSong, newSong, env).player.device;
            && currentSong in d.songTimes
            && d.songTimes[currentSong] == SavedTime(env.playbackTime)
            && forall song :: song in p.device.songTimes && song != currentSong ==>
                 song in d.songTimes && d.songTimes[song] == p.device.songTimes[song]
  {
  }

  /**
    Switching from a to b and straight back restores a at the position
    saved when a was left: every position write of the second switch
    carries that time.
   */
  lemma ChangeSongBackRestoresPosition(p: Player, a: string, b: string, e1: SongEnv, e2: SongEnv)
    requires a != b
    requires PauseStepSucceeds(p, e1)
    ensures var r1 := ChangeSong(p, a, b, e1);
            var r2 := ChangeSong(r1.player, b, a, e2);
            forall t :: SetPlaybackTime(t) in r2.trace ==> t == SavedTime(e1.playbackTime)
  {
    var r1 := ChangeSong(p, a, b, e1);
    var r2 := ChangeSong(r1.player, b, a, e2);
    forall t | SetPlaybackTime(t) in r2.trace
      ensures t == SavedTime(e1.playbackTime)
    {
      var i :| 0 <= i < |r2.trace| && r2.trace[i] == SetPlaybackTime(t);
      assert r2.player.device.songTimes[a] == r1.player.device.songTimes[a];
    }
  }
}

=== FILE: session.dfy ===
/**
  The server as a sequential event system. Handlers suspend while their
  body runs (a fade takes three seconds), and other requests are served
  meanwhile. Here that shows as separate events: a mutating request
  `Arrive`s and, once admitted, holds the gate until its body `Finish`es;
  an admin operation starts with its gated flag flip and ends with its
  gated reset, its callback running in between outside the gate. What the
  admin callback itself does is not part of this model.
 */
module Session {
  import opened MediaConfig
  import Playback
  import opened Locks
  import opened Handlers

  datatype System = System(
    player: Playback.Player,
    lock: LockState,
    inFlight: Option<Request>,   // the mutating request whose body holds the gate
    adminsRunning: nat)          // admin callbacks started and not yet finished

  datatype Event =
    | Arrive(req: Request, volumeLock: VolumeLock)   // a request reaches its handler
    | Finish(env: DeviceEnv)                         // the body in flight completes; the gate is released
    | AdminStart(reading: GateReading)               // withAdminOperation begins
    | AdminFinish(callbackOk: bool)                  // an admin callback ends; the gated reset runs

  datatype Note =
    | Handled(outcome: Outcome)      // a request was answered, refused, or its body completed
    | Started                        // a mutating request took the gate
    | AdminBegan(acquired: bool)     // withAdminOperation's first half; true: the callback runs
    | AdminEnded(result: AdminOutcome)
    | Ignored                        // a Finish with nothing in flight, or an AdminFinish with no callback running

  datatype StepResult = StepResult(sys: System, emitted: seq<Emit>, note: Note)

  /** Server start: a new player, no lock, nothing running. */
  function Initial(): System {
    System(Playback.NewPlayer().player, INITIAL_LOCK_STATE, None, 0)
  }

  /** The gate is held exactly while a mutating body is in flight; flag and snapshot agree. */
  predicate Inv(s: System) {
    && Valid(s.lock)
    && (s.lock.gateHeld <==> s.inFlight.Some?)
    && (s.inFlight.Some? ==> !s.inFlight.value.IsQuery())
  }

  lemma InitialInv()
    ensures Inv(Initial())
    ensures !IsLocked(Initial().lock) && Initial().player.config == INITIAL_PLAYER_CONFIG
  {
  }

  function Step(s: System, e: Event): (r: StepResult)
    ensures Inv(s) ==> Inv(r.sys)
    ensures e.Arrive? ==> r.sys.player == s.player && r.sys.lock.adminActive == s.lock.adminActive
    ensures !e.AdminFinish? && s.lock.adminActive ==>
      r.sys.lock.adminActive && r.sys.lock.savedUserState == s.lock.savedUserState
    ensures r.emitted != [] ==>
      (e.Finish? && r.note == Handled(Done)) || (e.Arrive? && e.req.IsQuery())
    ensures Inv(s) && s.inFlight.Some? && e.Arrive? && !e.req.IsQuery() ==>
      r.sys == s && r.emitted == [] && r.note != Started
  {
    match e
    case Arrive(req, volumeLock) =>
      if req.IsQuery() then StepResult(s, [ToSender(Answer(s.player, s.lock, req))], Handled(Answered))
      else
        (match Admit(s.player, s.lock, req, volumeLock)
         case Skip => StepResult(s, [], Handled(Unchanged))
         case Deny => StepResult(s, [], Handled(Denied))
         case Crash => StepResult(s, [], Handled(Failed))
         case Enter =>
           StepResult(s.(lock := s.lock.(gateHeld := true), inFlight := Some(req)), [], Started))
    case Finish(env) =>
      if s.inFlight.None? || s.inFlight.value.IsQuery() then StepResult(s, [], Ignored)
      else
        var b := RunBody(s.player, s.inFlight.value, env);
        var after := System(b.player, s.lock.(gateHeld := false), None, s.adminsRunning);
        StepResult(after, b.emitted, Handled(if b.ok then Done else Failed))
    case AdminStart(reading) =>
      var begin := BeginAdminOperation(s.lock, s.player.config, reading);
      var running := if begin.acquired then s.adminsRunning + 1 else s.adminsRunning;
      StepResult(s.(lock := begin.lock, adminsRunning := running), [], AdminBegan(begin.acquired))
    case AdminFinish(callbackOk) =>
      if s.adminsRunning == 0 then StepResult(s, [], Ignored)
      else
        var after := s.(lock := EndAdminOperation(s.lock), adminsRunning := s.adminsRunning - 1);
        StepResult(after, [], AdminEnded(if callbackOk then Returned(true) else Threw))
  }

  /** The state after a sequence of events. */
  function Run(s: System, events: seq<Event>): (t: System)
    decreases |events|
    ensures Inv(s) ==> Inv(t)
  {
    if events == [] then s else Run(Step(s, events[0]).sys, events[1..])
  }

  /** isLocked is true exactly while a user body is in flight or an override is active. */
  lemma LockedIffBusy(s: System)
    requires Inv(s)
    ensures IsLocked(s.lock) <==> s.inFlight.Some? || s.lock.adminActive
  {
  }

  /**
    Two change-state(PLAYING) requests arrive while the player is paused:
    the first takes the gate, the second is refused, and when the first
    body completes exactly one fade-in has run and one broadcast is sent.
   */
  lemma SimultaneousPlayRequests(s: System, env: DeviceEnv)
    requires Inv(s) && s.inFlight.None? && s.player.config.state == Paused
    requires env.fault.None?
    ensures var r1 := Step(s, Arrive(ChangeState(PLAYING_CODE), NetworkGate));
            var r2 := Step(r1.sys, Arrive(ChangeState(PLAYING_CODE), NetworkGate));
            var r3 := Step(r2.sys, Finish(env));
            && r1.note == Started
            && r2.note == Handled(Denied) && r2.sys == r1.sys && r2.emitted == []
            && r3.note == Handled(Done)
            && r3.sys.player.config.state == Playing
            && r3.emitted == [ToAll(StateChanged(Num(PLAYING_CODE)))]
            && !r3.sys.lock.gateHeld
  {
  }

  /**
    Arriving and finishing back to back is the same as handling the request
    in one step. An arrival starts exactly when the admission check lets it
    in; one that does not start is answered at once, as Handle answers it.
   */
  lemma ArriveThenFinishIsHandle(s: System, req: Request, volumeLock: VolumeLock, env: DeviceEnv)
    requires Inv(s) && s.inFlight.None? && !req.IsQuery()
    ensures var r1 := Step(s, Arrive(req, volumeLock));
            var h := Handle(s.player, s.lock, req, volumeLock, env);
            && (r1.note == Started <==> Admit(s.player, s.lock, req, volumeLock) == Enter)
            && (r1.note != Started ==>
                  r1.sys == s && r1.emitted == h.emitted && r1.note == Handled(h.outcome))
            && (r1.note == Started ==>
              var r2 := Step(r1.sys, Finish(env));
              && r2.sys.player == h.player
              && r2.sys.lock == s.lock
              && r2.emitted == h.emitted
              && r2.note == Handled(h.outcome))
  {
  }

  /**
    An admin start followed at once by the end of its callback, with no
    request in between, is the coordinator's withAdminLock run in one go:
    same lock state, same result, and the player untouched.
   */
  lemma AdminStartThenFinishIsWithAdminLock(s: System, reading: GateReading, callbackOk: bool)
    requires Inv(s) && s.adminsRunning == 0
    ensures var r1 := Step(s, AdminStart(reading));
            var w := WithAdminLock(s.lock, s.player.config, reading, callbackOk);
            && (r1.note == AdminBegan(true) <==> w.callbackRan)
            && (!w.callbackRan ==> r1.sys.lock == w.lock && w.outcome == Returned(false))
            && (w.callbackRan ==>
                  var r2 := Step(r1.sys, AdminFinish(callbackOk));
                  && r2.sys.lock == w.lock
                  && r2.note == AdminEnded(w.outcome)
                  && r2.sys.player == s.player
                  && r2.sys.adminsRunning == 0)
  {
  }

  predicate NoAdminFinish(events: seq<Event>) {
    forall i :: 0 <= i < |events| ==> !events[i].AdminFinish?
  }

  /**
    Once an override is active, no request, no completion and no further
    admin start can end it or alter its snapshot: only an admin finish can.
    Readers therefore see the snapshot taken at its start throughout.
   */
  lemma {:induction false} SnapshotStable(s: System, events: seq<Event>)
    requires s.lock.adminActive && NoAdminFinish(events)
    decreases |events|
    ensures Run(s, events).lock.adminActive
    ensures Run(s, events).lock.savedUserState == s.lock.savedUserState
  {
    if events != [] {
      var next := Step(s, events[0]).sys;
      assert NoAdminFinish(events[1..]) by {
        forall i | 0 <= i < |events[1..]|
          ensures !events[1..][i].AdminFinish?
        {
          assert events[1..][i] == events[i + 1];
        }
      }
      SnapshotStable(next, events[1..]);
    }
  }

  /**
    The admin reset refused by the gate is silent: an admin callback that
    ends while a user body holds the gate leaves the override active with no
    admin operation left to clear it, and every later request and completion
    keeps it active.
   */
  lemma OverrideOutlivesItsOperation(s: System, callbackOk: bool, later: seq<Event>)
    requires Inv(s) && s.inFlight.Some? && s.lock.adminActive && s.adminsRunning == 1
    requires NoAdminFinish(later)
    ensures var r := Step(s, AdminFinish(callbackOk));
            && r.sys.adminsRunning == 0
            && r.sys.lock.adminActive
            && r.sys.lock.savedUserState == s.lock.savedUserState
            && IsLocked(Run(r.sys, later).lock)
  {
    var r := Step(s, AdminFinish(callbackOk));
    SnapshotStable(r.sys, later);
  }
}
